=== FILE: README.md ===
# Allure run listener for JUnit on Android — a Dafny model

This project models `AllureRunListener`, the JUnit `RunListener` that turns a
test run's lifecycle callbacks into calls on an Allure lifecycle sink. The
listener keeps two pieces of state:

- the run id of the calling thread, which is minted lazily on first use,
  doubles as the uuid of the run's root container "TESTS", and is cleared at
  run end;
- a registry of open class containers keyed by class name.

Every callback is modelled as a pure transition. It takes the listener state
and returns the new state together with the ordered sink calls it makes.
Those calls are: container start/stop/write, and test schedule, start,
update, stop and write.

Modules:

- `Wrappers`, `Collections`: `Option`, and small facts about sequences without
  duplicates that list a set.
- `FreshIds`: the uuid source, as a counter rendered in decimal. Distinct
  draws give distinct ids.
- `ResultModel`: test results, labels, status details, JUnit descriptions and
  failures. It also holds the metadata extractors and the throwable
  classifier, as uninterpreted functions.
- `Lifecycle`: the sink calls, plus an abstract sink that applies them. The
  sink holds a current test and, per test id, a nullable status, nullable
  status details and a phase. The nullable status and details mirror the
  executable item's fields.
- `RunListener`: the listener state and one function per callback.
  `Dispatch` delivers any callback.
- `ListenerInvariant`: what every callback keeps true of the state. Every
  uuid in use came from the id source, no two classes share a container, and
  the root is never a class container.
- `TestIds`: when test ids and full names decode back to class and method,
  and the cases where two tests share an id.
- `Recording`: what the sink holds after the callbacks of one test.
- `RunTrace`: whole runs. It covers run start, any in-run callbacks and run
  finish, and the shape of the container calls they add up to.
- `DeliveredRun`: runs as the JUnit runner delivers them, starting with the
  description-taking run start, which does nothing.

Throughout, `L` stands for
`allure-android-commons/src/main/kotlin/io/qameta/allure/android/AllureRunListener.kt`
in prose. The table gives the full path.

## Model

| member | source | states |
|---|---|---|
| FreshIds.FreshIdInjective | allure-android-commons/src/main/kotlin/io/qameta/allure/android/AllureRunListener.kt:26-28 | Two draws from the id source give the same id exactly when they are the same draw. |
| FreshIds.FreshIdIsNew | allure-android-commons/src/main/kotlin/io/qameta/allure/android/AllureRunListener.kt:26-28 | An id drawn now differs from every id issued before it. |
| FreshIds.ValueOfFreshId | allure-android-commons/src/main/kotlin/io/qameta/allure/android/AllureRunListener.kt:27 | A drawn id reads back as the counter value it was drawn at. |
| RunListener.CurrentRunId | allure-android-commons/src/main/kotlin/io/qameta/allure/android/AllureRunListener.kt:26-28 | Reading the thread's run id returns the stored id and changes nothing. When none is stored, it mints one, stores it and advances the id source by one. |
| RunListener.TestRunStarted | allure-android-commons/src/main/kotlin/io/qameta/allure/android/AllureRunListener.kt:43-48 | Run start emits exactly one container start: no parent, uuid equal to the run id, name "TESTS". Afterwards the run id is stored and the registry is unchanged. |
| RunListener.TestRunStartedWith | allure-android-commons/src/main/kotlin/io/qameta/allure/android/AllureRunListener.kt:38-41 | The description-taking overload emits nothing and keeps the state. |
| RunListener.Drain | allure-android-commons/src/main/kotlin/io/qameta/allure/android/AllureRunListener.kt:62-64 | Draining the key snapshot removes exactly those keys from the registry. It stops and then writes each removed container, in snapshot order. |
| RunListener.TestRunFinished | allure-android-commons/src/main/kotlin/io/qameta/allure/android/AllureRunListener.kt:61-67 | Run finish leaves the registry empty and the run id cleared. It starts no container. It stops and writes every registered container, in snapshot order, then the root; each write comes right after the stop of the same container. |
| RunListener.TestRunFinishedWith | allure-android-commons/src/main/kotlin/io/qameta/allure/android/AllureRunListener.kt:56-59 | The result-taking overload ignores the result and behaves as run finish. |
| RunListener.GetContainer | allure-android-commons/src/main/kotlin/io/qameta/allure/android/AllureRunListener.kt:181-194 | A registered class gets its container back, with no call and no state change. A new class gets a fresh uuid, registered under its class name and started under the thread's run id with the class display name; no other registry entry changes. |
| RunListener.CreateTestResult | allure-android-commons/src/main/kotlin/io/qameta/allure/android/AllureRunListener.kt:196-197 | A created test result carries the derived test id and has no status or status details yet. |
| RunListener.TestResultFields | allure-android-commons/src/main/kotlin/io/qameta/allure/android/AllureRunListener.kt:196-208 | The full name is class name, '.', method name. The labels start with package, testClass (the class name), testMethod (the method name) and suite, in that order, and continue with the extractor's labels unchanged. |
| RunListener.TestStarted | allure-android-commons/src/main/kotlin/io/qameta/allure/android/AllureRunListener.kt:75-83 | Test start stores the run id and registers the test's class. It adds no other class and re-points no registered class. |
| RunListener.TestStartedCalls | allure-android-commons/src/main/kotlin/io/qameta/allure/android/AllureRunListener.kt:78-81 | Test start ends with the test result scheduled into its class container and then started by its id. These are preceded by the class container's start under the run id only when the class was not registered. |
| RunListener.TestFinished | allure-android-commons/src/main/kotlin/io/qameta/allure/android/AllureRunListener.kt:90-99 | Test finish keeps the listener state. It emits, in order: an update on the current test that sets PASSED only when no status is set, a stop, and a write. |
| RunListener.TargetIds | allure-android-commons/src/main/kotlin/io/qameta/allure/android/AllureRunListener.kt:136-143 | A failure targets the test's own id, or the id of each direct child of a suite, in order. |
| RunListener.UpdateEach | allure-android-commons/src/main/kotlin/io/qameta/allure/android/AllureRunListener.kt:220-225 | A suite failure emits one update per child, each on that child's test id with the same change, in child order. It keeps the registry. |
| RunListener.WithException | allure-android-commons/src/main/kotlin/io/qameta/allure/android/AllureRunListener.kt:136-143 | Failure handling emits exactly one by-id update per target, setting the classified status and details. It emits no stop or write and keeps the registry. |
| RunListener.IgnoredMessage | allure-android-commons/src/main/kotlin/io/qameta/allure/android/AllureRunListener.kt:166-172 | An ignored test's message is the @Ignore value when it is present and non-empty. Otherwise it is "Test ignored (without reason)!". There is never a trace. |
| RunListener.TestIgnored | allure-android-commons/src/main/kotlin/io/qameta/allure/android/AllureRunListener.kt:151-164 | Ignoring a test stores the run id and registers the test's class. It adds no other class and re-points no registered class. |
| RunListener.TestIgnoredCalls | allure-android-commons/src/main/kotlin/io/qameta/allure/android/AllureRunListener.kt:153-162 | Ignoring a test ends with the skipped result scheduled into its class container, then started, stopped and written by its id. These are preceded by the class container's start only when the class was new. |
| Lifecycle.ApplyChange | allure-android-commons/src/main/kotlin/io/qameta/allure/android/AllureRunListener.kt:211-218 | An outcome update sets exactly the classified status and details. The finish update sets PASSED when the status is unset and keeps a set status. Neither changes the phase. |
| Lifecycle.MarkPassedIdempotent | allure-android-commons/src/main/kotlin/io/qameta/allure/android/AllureRunListener.kt:93-95 | Marking passed-if-unset twice is the same as marking once. It never overrides an outcome set before. |
| Lifecycle.FinalizeAllCalls | allure-android-commons/src/main/kotlin/io/qameta/allure/android/AllureRunListener.kt:174-179 | Finalizing a list of containers stops and writes each one once, in list order, and starts none. Each write directly follows the stop of the same container. |
| Lifecycle.FinishCurrent | allure-android-commons/src/main/kotlin/io/qameta/allure/android/AllureRunListener.kt:92-98 | The three finish calls leave the current test written, with status PASSED if it had none and its earlier status otherwise. Its details are unchanged and no other test changes. |
| Lifecycle.ScheduleToWrite | allure-android-commons/src/main/kotlin/io/qameta/allure/android/AllureRunListener.kt:158-163 | Schedule, start, stop and write by id leave the test written with the status and details it was scheduled with. |
| Lifecycle.ContainerCallsKeepTests | allure-android-commons/src/main/kotlin/io/qameta/allure/android/AllureRunListener.kt:174-179 | Container calls leave the sink's test records and current test alone. |
| TestIds.TestUuidRoundTrip | allure-android-commons/src/main/kotlin/io/qameta/allure/android/AllureRunListener.kt:227-229 | For a class name with no '#', a test id of a run splits back into the class name and the method text it was built from. A missing method name is the text "null". |
| TestIds.TestUuidInjective | allure-android-commons/src/main/kotlin/io/qameta/allure/android/AllureRunListener.kt:227-229 | Within one run, for class names with no '#', two descriptions get the same test id exactly when they name the same class and the same method text. A missing method name and a method named "null" share the text "null". |
| TestIds.FullNameRoundTrip | allure-android-commons/src/main/kotlin/io/qameta/allure/android/AllureRunListener.kt:200 | For method text with no '.', a full name splits at its last '.' back into class name and method text. |
| TestIds.HashInClassNameCollides | allure-android-commons/src/main/kotlin/io/qameta/allure/android/AllureRunListener.kt:227-229 | Class "a#b" with method "c" and class "a" with method "b#c" are different tests with the same test id. |
| TestIds.MissingMethodNameCollides | allure-android-commons/src/main/kotlin/io/qameta/allure/android/AllureRunListener.kt:227-229 | A description with no method name gets the same test id as a method named "null" of the same class. |
| TestIds.DotInMethodNameMisSplits | allure-android-commons/src/main/kotlin/io/qameta/allure/android/AllureRunListener.kt:200 | When the method text holds a '.', splitting the full name at its last '.' does not give back the class and method. |
| ListenerInvariant.GetContainerValid | allure-android-commons/src/main/kotlin/io/qameta/allure/android/AllureRunListener.kt:185-194 | Creating a container keeps the state valid. The new uuid differs from every class container's uuid and from the run root's. |
| ListenerInvariant.DispatchValid | allure-android-commons/src/main/kotlin/io/qameta/allure/android/AllureRunListener.kt:38-229 | Every callback keeps the state valid. |
| ListenerInvariant.GetContainerOnce | allure-android-commons/src/main/kotlin/io/qameta/allure/android/AllureRunListener.kt:181-183 | Asking again for the same class's container yields the same uuid, emits nothing and keeps the state. |
| ListenerInvariant.StartedReusesContainer | allure-android-commons/src/main/kotlin/io/qameta/allure/android/AllureRunListener.kt:80 | Starting a test of a registered class starts no container, keeps the registry, and schedules into the registered container. |
| ListenerInvariant.NextRunGetsNewRoot | allure-android-commons/src/main/kotlin/io/qameta/allure/android/AllureRunListener.kt:65-66 | After run finish clears the run id, the next run start's root uuid is new. It differs from the previous root and from every container of the previous run. |
| Recording.StartedTestRunning | allure-android-commons/src/main/kotlin/io/qameta/allure/android/AllureRunListener.kt:75-83 | After test start, the sink's current test is the new id, running with no status. No other test changes. |
| Recording.FinishedKeepsStatus | allure-android-commons/src/main/kotlin/io/qameta/allure/android/AllureRunListener.kt:90-99 | Test finish writes the current test. It keeps a status set earlier and sets PASSED only when none was set. |
| Recording.OutcomesApplied | allure-android-commons/src/main/kotlin/io/qameta/allure/android/AllureRunListener.kt:211-225 | One outcome update per id sets that outcome on each held test among the ids. It leaves phases, the current test and every other test unchanged. |
| Recording.FailureRecorded | allure-android-commons/src/main/kotlin/io/qameta/allure/android/AllureRunListener.kt:136-143 | A failure sets the classified status and details on exactly the held tests it targets. Every other test and the current test stay as they were. |
| Recording.PassedTestReport | allure-android-commons/src/main/kotlin/io/qameta/allure/android/AllureRunListener.kt:75-99 | A test that starts and finishes with no failure is written as PASSED with no details. No other test changes. |
| Recording.FailedTestReport | allure-android-commons/src/main/kotlin/io/qameta/allure/android/AllureRunListener.kt:90-143 | Started, failed, finished: the test is written with the failure's classified status and details, not PASSED. |
| Recording.IgnoredTestReport | allure-android-commons/src/main/kotlin/io/qameta/allure/android/AllureRunListener.kt:151-172 | An ignored test is written as SKIPPED with the ignore message, with no further callback. No other test changes. |
| Recording.SuiteFailureReport | allure-android-commons/src/main/kotlin/io/qameta/allure/android/AllureRunListener.kt:220-225 | A suite failure gives every held direct child the same classified status and details. |
| RunTrace.ReplayInRun | allure-android-commons/src/main/kotlin/io/qameta/allure/android/AllureRunListener.kt:75-194 | In-run callbacks keep the run root and valid state. Their effects: <br>– They register exactly the classes whose tests start or are ignored. <br>– They start one container per newly registered class, all under the root. <br>– They stop or write no container. |
| RunTrace.WholeRun | allure-android-commons/src/main/kotlin/io/qameta/allure/android/AllureRunListener.kt:43-67 | A whole run opened by the public no-argument run start (L:43) ends with an empty registry and a cleared run id. The JUnit runner never calls that run start; DeliveredRun.JUnitRun and DeliveredRun.JUnitRunClosed cover the run it delivers. Its container calls: <br>– The root starts first, with no parent; every later container starts under it. <br>– Each started container is stopped, then written, exactly once, and no other container is. <br>– One container is written per class used, then the root last. |
| RunTrace.FailureTargetsScheduledTest | allure-android-commons/src/main/kotlin/io/qameta/allure/android/AllureRunListener.kt:227-229 | A test's failure reported later in the same run updates exactly the id that its test start scheduled. |
| RunTrace.ReplayKeepsRunId | allure-android-commons/src/main/kotlin/io/qameta/allure/android/AllureRunListener.kt:26-28 | In-run callbacks never change a stored run id. |
| RunTrace.StartFinishPairs | allure-android-commons/src/main/kotlin/io/qameta/allure/android/AllureRunListener.kt:75-99 | Tests each started and then finished, with no failure, are all written as PASSED, under ids built from the run id the listener holds or mints at the first start. Every other test the sink held stays as it was. |
| RunTrace.ScheduledTestsInRunContainers | allure-android-commons/src/main/kotlin/io/qameta/allure/android/AllureRunListener.kt:75-194 | In a whole run, every test is scheduled into a container that was started earlier in the run under the root, and that container is written at run finish. |
| DeliveredRun.LazyOpen | allure-android-commons/src/main/kotlin/io/qameta/allure/android/AllureRunListener.kt:26-28 | In-run callbacks make the same sink calls whether the run id was minted before them or is minted by the first callback that needs it. They end in the same state, or else none of them minted it. |
| DeliveredRun.JUnitRun | allure-android-commons/src/main/kotlin/io/qameta/allure/android/AllureRunListener.kt:38-67 | A run as the JUnit runner delivers it (run start with a description, in-run callbacks, run finish with a result) ends with an empty registry and a cleared run id. The root uuid is written at run finish but never started, and every class container is started with the root as its parent. |
| DeliveredRun.JUnitRunClosed | allure-android-commons/src/main/kotlin/io/qameta/allure/android/AllureRunListener.kt:38-67 | In a run as the JUnit runner delivers it, one container is written per class whose tests were started or ignored, then the root last; no container is written twice. Stops and writes list the same containers in the same order, and each write comes right after the stop of the same container. The containers started are exactly those written other than the root. |

## Left out

- Concurrency: the inheritable thread-local run id (L:26-28) and the concurrent map (L:30) are modelled for one sequential thread. A child thread inheriting its parent's run id is not modelled.
- Concurrency, continued: getContainer's check-then-put (L:182, 191) is not atomic in the code. So "one container per class" is proved only for sequential calls, not under contention.
- Randomness and clocks: `UUID.randomUUID()` is an id source modelled as a counter rendered in decimal. `System.currentTimeMillis()` start times are omitted.
- Sink persistence: the sink's file writing is not modelled. The sink is an abstract store of status, details and phase per test id.
- The sink's current test: the argument-less update, stop and write of testFinished act on it. It is modelled as the most recently started test, which is an assumption about a sink that is not part of this model.
- Unknown ids: a sink call on an id the sink does not hold changes nothing in the model.
- Metadata extractors (history id, labels, links, display names, package) and `Status.fromThrowable` / `StatusDetails.fromThrowable` are uninterpreted functions. The FAILED vs BROKEN rule is not stated.
- JUnit reflection: a description is a record of class name, nullable method name, test flag, children and an optional `@Ignore` value. The test flag is a free field. In JUnit 4 a description is a test exactly when it has no children, so the model also admits descriptions JUnit never builds (a suite with no children, a test with children). On descriptions JUnit does build, the behaviour is the same.
- Failing collaborators: sink calls and extractors are assumed never to throw. The callbacks declare `Exception` (L:38, 56, 75, 90, 119, 131, 151) and catch nothing, so a throw aborts a callback midway. The model does not cover that path. Two examples: a throw from a finalization inside the drain (L:62-64) leaves the later keys registered and skips clearing the run id (L:66); a throw from the container start (L:192) leaves a registered container (L:191) that was never started.
- Serialization annotations, steps, attachments, parameters, and a container's list of children are not modelled.
- RunListener.TestRunFinished: the `remove(it)?.uuid` null branch (L:63) arises only when another thread removed the key meanwhile. The model excludes it by requiring the key order to list exactly the registry's keys.
- Iteration order: the order in which the concurrent map lists its keys at run finish is a parameter of the model.
- RunTrace.StartFinishPairs: states the final sink contents only. It does not count how often each test is written.
- RunListener.TestStarted: its contract covers the state only. The calls it makes are stated by RunListener.TestStartedCalls.
- RunListener.TestIgnored: its contract covers the state only. The calls it makes are stated by RunListener.TestIgnoredCalls.

## Notes

- getContainer looks the class up and then puts a new container separately (L:182, 191). The two steps are not one atomic action.
- Run finish takes a snapshot of the registry's keys and removes them one by one (L:62-63).
- A test result's labels are an ordered list, with the four identifying labels first (L:202-207).
- An ignored test with no reason gets the message "Test ignored (without reason)!". An empty `@Ignore` value also counts as no reason (L:168-169).
- A second run start without a run finish in between starts the same root uuid again, because the stored run id is reused (L:45).
- Run start and run finish are not symmetric. The JUnit runner calls the description-taking run start (L:38-41), which does nothing, and never the no-argument one that starts the root container (L:43-48). Both run finish overloads stop and write the root (L:56-67). So in a run the runner delivers, the root is written but never started, while every class container names it as parent (L:192).
- Run finish reads the run id again (L:65). If none is stored at that point, a fresh one is minted, then stopped and written although it was never started.
- Test ids are not unique in general (L:228). A class name holding '#', or a missing method name next to a method named "null", lets two different tests of one run share an id: see TestIds.HashInClassNameCollides and TestIds.MissingMethodNameCollides. Full names of parameterized methods whose names hold '.' do not split back (L:200): see TestIds.DotInMethodNameMisSplits. The model keeps the ids as the code builds them.

=== FILE: collections.dfy ===
/** Small facts about sequences used to talk about traces: duplicate-free
    sequences and the set of their elements. */
module Collections {

  /** No element occurs twice in `s`. */
  predicate NoDup<T(==)>(s: seq<T>)
  {
    forall i, j :: 0 <= i < j < |s| ==> s[i] != s[j]
  }

  /** The set of elements of `s`. */
  function Elements<T(==,!new)>(s: seq<T>): (r: set<T>)
    ensures forall x :: x in r <==> x in s
  {
    set x | x in s
  }

  /** `order` lists every element of `keys` exactly once: what iterating over
      a snapshot of a map's key set yields. */
  predicate IsEnumeration<T(==,!new)>(order: seq<T>, keys: set<T>)
  {
    NoDup(order) && Elements(order) == keys
  }

  /** A duplicate-free sequence has as many positions as distinct elements. */
  lemma {:induction false} NoDupLength<T(!new)>(s: seq<T>)
    requires NoDup(s)
    ensures |Elements(s)| == |s|
  {
    if s != [] {
      var t := s[1..];
      assert NoDup(t);
      NoDupLength(t);
      assert s[0] !in t by {
        forall j | 0 <= j < |t| ensures t[j] != s[0] {
          assert t[j] == s[j + 1];
        }
      }
      assert Elements(s) == {s[0]} + Elements(t) by {
        assert s == [s[0]] + t;
      }
    }
  }

  /** An enumeration of a set is as long as the set is large. */
  lemma EnumerationLength<T(!new)>(order: seq<T>, keys: set<T>)
    requires IsEnumeration(order, keys)
    ensures |order| == |keys|
  {
    NoDupLength(order);
    assert Elements(order) == keys;
  }

  /** Appending keeps a sequence duplicate-free when the two parts share no element. */
  lemma NoDupAppend<T(!new)>(a: seq<T>, b: seq<T>)
    requires NoDup(a) && NoDup(b)
    requires forall x :: x in a ==> x !in b
    ensures NoDup(a + b)
  {
    var c := a + b;
    forall i, j | 0 <= i < j < |c| ensures c[i] != c[j] {
      if j < |a| {
      } else if i >= |a| {
        assert c[i] == b[i - |a|] && c[j] == b[j - |a|];
      } else {
        assert c[i] in a && c[j] == b[j - |a|];
      }
    }
  }

  /** Position of the first occurrence of `x` in `s`, if any. */
  function IndexOf<T(==)>(s: seq<T>, x: T): (r: int)
    ensures -1 <= r < |s|
    ensures r == -1 <==> x !in s
    ensures 0 <= r ==> s[r] == x && x !in s[..r]
    decreases |s|
  {
    if |s| == 0 then -1
    else if s[0] == x then 0
    else
      var i := IndexOf(s[1..], x);
      if i == -1 then (assert s == [s[0]] + s[1..]; -1)
      else (assert s[..i + 1] == [s[0]] + s[1..][..i]; i + 1)
  }

  /** Position of the last occurrence of `x` in `s`, if any. */
  function LastIndexOf<T(==)>(s: seq<T>, x: T): (r: int)
    ensures -1 <= r < |s|
    ensures r == -1 <==> x !in s
    ensures 0 <= r ==> s[r] == x && x !in s[r + 1..]
    decreases |s|
  {
    if |s| == 0 then -1
    else
      var i := LastIndexOf(s[1..], x);
      if 0 <= i then (assert s[i + 2..] == s[1..][i + 1..]; i + 1)
      else if s[0] == x then (assert s[1..] == s[0 + 1..]; 0)
      else (assert s == [s[0]] + s[1..]; -1)
  }

  /** In `a + [x] + b` with no `x` in `a`, the first `x` is the one after `a`. */
  lemma IndexOfSeparator<T>(a: seq<T>, x: T, b: seq<T>)
    requires x !in a
    ensures IndexOf(a + [x] + b, x) == |a|
  {
    var s := a + [x] + b;
    var i := IndexOf(s, x);
    assert s[|a|] == x;
    assert s[..|a|] == a;
  }

  /** In `a + [x] + b` with no `x` in `b`, the last `x` is the one before `b`. */
  lemma LastIndexOfSeparator<T>(a: seq<T>, x: T, b: seq<T>)
    requires x !in b
    ensures LastIndexOf(a + [x] + b, x) == |a|
  {
    var s := a + [x] + b;
    var i := LastIndexOf(s, x);
    assert s[|a|] == x;
    assert s[|a| + 1..] == b;
  }
}

=== FILE: delivered_run.dfy ===
/** Runs as the JUnit runner delivers them. The runner calls the run-start
    overload that takes the run's description, which does nothing; it never
    calls the no-argument run start. So the root container is never started,
    and the run id is minted by the first callback that needs it. */
module DeliveredRun {
  import opened Wrappers
  import opened Collections
  import opened ResultModel
  import opened Lifecycle
  import opened RunListener
  import opened ListenerInvariant
  import opened RunTrace

  /** Minting the run id up front changes nothing an in-run callback does:
      either the callback mints the same id itself and ends in the same state,
      or it leaves the run id alone and makes the same calls. */
  lemma DispatchLazy(meta: Metadata, s: State, cb: Callback)
    requires InRun(cb)
    ensures var s1 := CurrentRunId(s).1;
            var r := Dispatch(meta, s, cb);
            var r1 := Dispatch(meta, s1, cb);
            r1 == r || (r.state == s && r1 == Step(s1, r.events))
  {
    if s.runId.None? {
      match cb
      case Failed(f) =>
        if Targets(f.description) != [] {
          assert TestFailure(meta, CurrentRunId(s).1, f) == TestFailure(meta, s, f);
        }
      case AssumptionFailed(f) =>
        if Targets(f.description) != [] {
          assert TestAssumptionFailure(meta, CurrentRunId(s).1, f) == TestAssumptionFailure(meta, s, f);
        }
      case _ =>
    }
  }

  /** In-run callbacks make the same calls whether or not the run id was
      minted before them; they end in the same state, or else none of them
      minted it and both listeners are where they started. */
  lemma {:induction false} LazyOpen(meta: Metadata, s: State, cbs: seq<Callback>)
    requires forall i :: 0 <= i < |cbs| ==> InRun(cbs[i])
    ensures var s1 := CurrentRunId(s).1;
            var r := Replay(meta, s, cbs);
            var r1 := Replay(meta, s1, cbs);
            && r.events == r1.events
            && (r.state == r1.state || (r.state == s && r1.state == s1))
    decreases |cbs|
  {
    var s1 := CurrentRunId(s).1;
    if cbs != [] {
      assert InRun(cbs[0]);
      var first := Dispatch(meta, s, cbs[0]);
      var first1 := Dispatch(meta, s1, cbs[0]);
      DispatchLazy(meta, s, cbs[0]);
      if first1 != first {
        assert first.state == s && first1 == Step(s1, first.events);
        LazyOpen(meta, s, cbs[1..]);
      }
    }
  }

  /** The root is written but never started, and every container that is
      started names it as its parent. */
  ghost predicate WrittenNeverStarted(all: seq<Event>, root: string)
  {
    && root in ContainerWrites(all) && root !in ContainerStarts(all)
    && UnderRoot(all, root)
  }

  /** A run as the JUnit runner delivers it, from a listener with no class
      registered: run start with a description, the in-run callbacks, run
      finish with a result. The root is written at the end but never started,
      every class container is started under it, and the listener ends with
      no run id and an empty registry. */
  lemma JUnitRun(meta: Metadata, s: State, runDescription: Description, cbs: seq<Callback>,
                 result: Option<RunSummary>, order: seq<string>)
    requires Valid(s) && s.containers == map[]
    requires forall i :: 0 <= i < |cbs| ==> InRun(cbs[i])
    requires IsEnumeration(order, Replay(meta, TestRunStartedWith(s, runDescription).state, cbs).state.containers.Keys)
    ensures var started := TestRunStartedWith(s, runDescription);
            var mid := Replay(meta, started.state, cbs);
            var finished := TestRunFinishedWith(mid.state, result, order);
            var all := started.events + mid.events + finished.events;
            var root := RunIdOf(s);
            && finished.state.runId.None? && finished.state.containers == map[]
            && WrittenNeverStarted(all, root)
  {
    var root := RunIdOf(s);
    var started := TestRunStartedWith(s, runDescription);
    var mid := Replay(meta, started.state, cbs);
    assert UnderRoot(mid.events, root) && root !in ContainerStarts(mid.events) && RunIdOf(mid.state) == root by {
      DeliveredMid(meta, started.state, cbs, order);
    }
    assert started.events + mid.events == mid.events;
    DeliveredFinish(root, mid, result, order);
  }

  /** Run finish after an in-run stretch that opened containers under the
      root only: the root is written but never started. */
  lemma DeliveredFinish(root: string, mid: Step, result: Option<RunSummary>, order: seq<string>)
    requires IsEnumeration(order, mid.state.containers.Keys)
    requires UnderRoot(mid.events, root) && root !in ContainerStarts(mid.events) && RunIdOf(mid.state) == root
    ensures var finished := TestRunFinishedWith(mid.state, result, order);
            && finished.state.runId.None? && finished.state.containers == map[]
            && WrittenNeverStarted(mid.events + finished.events, root)
  {
    var finished := TestRunFinishedWith(mid.state, result, order);
    DeliveredCalls(root, mid.events, finished.events);
  }

  /** The in-run stretch of a delivered run opens containers under the run id
      the listener holds or mints, never that id itself, and ends holding it
      or still unminted. */
  lemma DeliveredMid(meta: Metadata, s: State, cbs: seq<Callback>, order: seq<string>)
    requires Valid(s) && s.containers == map[]
    requires forall i :: 0 <= i < |cbs| ==> InRun(cbs[i])
    requires IsEnumeration(order, Replay(meta, s, cbs).state.containers.Keys)
    ensures var mid := Replay(meta, s, cbs);
            && UnderRoot(mid.events, RunIdOf(s)) && RunIdOf(s) !in ContainerStarts(mid.events)
            && RunIdOf(mid.state) == RunIdOf(s)
  {
    var s1 := TestRunStarted(s).state;
    var mid := Replay(meta, s, cbs);
    var mid1 := Replay(meta, s1, cbs);
    LazyOpen(meta, s, cbs);
    if mid.state != mid1.state {
      assert mid.state == s;
    } else {
      ReplayKeepsRunId(meta, s1, cbs);
    }
    var ids := MidRun(meta, s, cbs, order);
  }

  /** The container calls of a delivered run, given the facts about its two
      stretches: the in-run callbacks open containers under the root only, and
      the finish only stops and writes containers, the root among them. */
  lemma DeliveredCalls(root: string, mid: seq<Event>, fin: seq<Event>)
    requires UnderRoot(mid, root) && root !in ContainerStarts(mid)
    requires ContainerStarts(fin) == [] && root in ContainerWrites(fin)
    requires forall i :: 0 <= i < |fin| ==> fin[i].StopContainer? || fin[i].WriteContainer?
    ensures WrittenNeverStarted(mid + fin, root)
  {
    var all := mid + fin;
    StartsAppend(mid, fin);
    WritesAppend(mid, fin);
    forall i | 0 <= i < |all| && all[i].StartContainer?
      ensures all[i].parent == Some(root)
    {
      if i >= |mid| {
        assert false;
      } else {
        assert all[i] == mid[i];
      }
    }
  }

  /** Each container started is stopped and then written exactly once, and so
      is the root, which is never started; nothing else is stopped or written.
      `classes` containers are written, then the root last. */
  ghost predicate ClosedWithoutRootStart(all: seq<Event>, root: string, classes: nat)
  {
    && NoDup(ContainerStarts(all)) && NoDup(ContainerWrites(all))
    && (forall id :: id in ContainerStarts(all) <==> id in ContainerWrites(all) && id != root)
    && ContainerStops(all) == ContainerWrites(all)
    && StoppedBeforeWritten(all)
    && |ContainerWrites(all)| == classes + 1
    && ContainerWrites(all)[classes] == root
  }

  /** The container account of a run as the JUnit runner delivers it: one
      container per class whose tests were started or ignored, each started,
      then stopped and written once, and the root stopped and written last
      without having been started. */
  lemma JUnitRunClosed(meta: Metadata, s: State, runDescription: Description, cbs: seq<Callback>,
                       result: Option<RunSummary>, order: seq<string>)
    requires Valid(s) && s.containers == map[]
    requires forall i :: 0 <= i < |cbs| ==> InRun(cbs[i])
    requires IsEnumeration(order, Replay(meta, TestRunStartedWith(s, runDescription).state, cbs).state.containers.Keys)
    ensures var started := TestRunStartedWith(s, runDescription);
            var mid := Replay(meta, started.state, cbs);
            var finished := TestRunFinishedWith(mid.state, result, order);
            ClosedWithoutRootStart(started.events + mid.events + finished.events, RunIdOf(s), |ClassesOf(cbs)|)
  {
    var root := RunIdOf(s);
    var started := TestRunStartedWith(s, runDescription);
    var mid := Replay(meta, started.state, cbs);
    var ids := DeliveredMidIds(meta, started.state, cbs, order);
    assert started.events + mid.events == mid.events;
    DeliveredFinishClosed(root, mid, result, order, ids);
  }

  /** Run finish after an in-run stretch that only opened containers, each
      once: the finish closes each of them and then the root. */
  lemma DeliveredFinishClosed(root: string, mid: Step, result: Option<RunSummary>, order: seq<string>, ids: seq<string>)
    requires IsEnumeration(order, mid.state.containers.Keys)
    requires OpensOnly(mid.events)
    requires NoDup(ContainerStarts(mid.events)) && root !in ContainerStarts(mid.events)
    requires NoDup(ids) && root !in ids
    requires forall id :: id in ContainerStarts(mid.events) <==> id in ids
    requires ContainerStops(TestRunFinished(mid.state, order).events) == ids + [root]
    requires ContainerWrites(TestRunFinished(mid.state, order).events) == ids + [root]
    ensures ClosedWithoutRootStart(mid.events + TestRunFinishedWith(mid.state, result, order).events, root, |ids|)
  {
    var finished := TestRunFinishedWith(mid.state, result, order);
    DeliveredClosed(root, mid.events, finished.events, ids);
  }

  /** The in-run stretch of a delivered run, and the class container uuids its
      finish drains before the root: the same as for a run opened by the
      no-argument run start. */
  lemma DeliveredMidIds(meta: Metadata, s: State, cbs: seq<Callback>, order: seq<string>) returns (ids: seq<string>)
    requires Valid(s) && s.containers == map[]
    requires forall i :: 0 <= i < |cbs| ==> InRun(cbs[i])
    requires IsEnumeration(order, Replay(meta, s, cbs).state.containers.Keys)
    ensures var root := RunIdOf(s);
            var mid := Replay(meta, s, cbs);
            var fin := TestRunFinished(mid.state, order);
            && OpensOnly(mid.events)
            && NoDup(ContainerStarts(mid.events)) && root !in ContainerStarts(mid.events)
            && NoDup(ids) && root !in ids && |ids| == |ClassesOf(cbs)|
            && (forall id :: id in ContainerStarts(mid.events) <==> id in ids)
            && ContainerStops(fin.events) == ids + [root] && ContainerWrites(fin.events) == ids + [root]
  {
    var root := RunIdOf(s);
    var s1 := TestRunStarted(s).state;
    var mid := Replay(meta, s, cbs);
    var mid1 := Replay(meta, s1, cbs);
    LazyOpen(meta, s, cbs);
    assert mid.state.containers == mid1.state.containers;
    assert RunIdOf(mid.state) == root && RunIdOf(mid1.state) == root by {
      DeliveredMid(meta, s, cbs, order);
      ReplayKeepsRunId(meta, s1, cbs);
    }
    ids := MidRun(meta, s, cbs, order);
  }

  /** The container calls of a delivered run, given the facts about its two
      stretches: the in-run callbacks only open containers, each once, and the
      finish stops and writes each of them and then the root. */
  lemma DeliveredClosed(root: string, mid: seq<Event>, fin: seq<Event>, ids: seq<string>)
    requires OpensOnly(mid)
    requires NoDup(ContainerStarts(mid)) && root !in ContainerStarts(mid)
    requires NoDup(ids) && root !in ids
    requires forall id :: id in ContainerStarts(mid) <==> id in ids
    requires ContainerStarts(fin) == []
    requires ContainerStops(fin) == ids + [root] && ContainerWrites(fin) == ids + [root]
    requires StoppedBeforeWritten(fin)
    ensures ClosedWithoutRootStart(mid + fin, root, |ids|)
  {
    ContainerCallsAppend(mid, fin);
    OpensOnlyCalls(mid);
    NoDupAppend(ids, [root]);
    forall i | 0 <= i < |mid| ensures !mid[i].WriteContainer? {
    }
    if fin != [] {
      assert !fin[0].WriteContainer?;
    }
    StoppedBeforeWrittenAppend(mid, fin);
  }
}

=== FILE: fresh_ids.dfy ===
/** The listener's source of unique ids.

    Every id the listener does not derive itself (the run id of a thread, the
    uuid of a class container) comes from a random UUID. The model replaces
    the random source by a counter: the n-th id drawn is the decimal rendering
    of n. All the model needs from a UUID is that two draws never coincide,
    and that is proved here by parsing the rendering back. */
module FreshIds {

  predicate IsDigit(c: char)
  {
    '0' <= c <= '9'
  }

  function DigitValue(c: char): (d: nat)
    requires IsDigit(c)
    ensures d < 10
  {
    c as int - '0' as int
  }

  /** A non-empty string of decimal digits. */
  predicate IsDecimal(s: string)
  {
    |s| > 0 && forall i :: 0 <= i < |s| ==> IsDigit(s[i])
  }

  function DigitChar(d: nat): (c: char)
    requires d < 10
    ensures IsDigit(c) && DigitValue(c) == d
  {
    ('0' as int + d) as char
  }

  /** The n-th id handed out by the id source. */
  function FreshId(n: nat): (s: string)
    ensures IsDecimal(s)
    decreases n
  {
    if n < 10 then [DigitChar(n)] else FreshId(n / 10) + [DigitChar(n % 10)]
  }

  /** Reads a string of decimal digits back as a number. */
  function Value(s: string): nat
    requires forall i :: 0 <= i < |s| ==> IsDigit(s[i])
    decreases |s|
  {
    if |s| == 0 then 0
    else Value(s[..|s| - 1]) * 10 + DigitValue(s[|s| - 1])
  }

  /** Reading an id back gives the counter value it was drawn at. */
  lemma {:induction false} ValueOfFreshId(n: nat)
    ensures Value(FreshId(n)) == n
    decreases n
  {
    var s := FreshId(n);
    if n < 10 {
      assert s[..|s| - 1] == [];
    } else {
      ValueOfFreshId(n / 10);
      assert s[..|s| - 1] == FreshId(n / 10);
    }
  }

  /** Two draws from the id source never coincide. */
  lemma FreshIdInjective(m: nat, n: nat)
    ensures FreshId(m) == FreshId(n) <==> m == n
  {
    ValueOfFreshId(m);
    ValueOfFreshId(n);
  }

  /** `id` was handed out before the counter reached `n`. */
  predicate Issued(id: string, n: nat)
  {
    IsDecimal(id) && Value(id) < n
  }

  /** The id drawn at counter `n` was issued before the counter moved past it,
      and differs from every id issued before it. */
  lemma FreshIdIsNew(n: nat, id: string)
    ensures Issued(FreshId(n), n + 1)
    ensures Issued(id, n) ==> id != FreshId(n)
  {
    ValueOfFreshId(n);
  }
}

=== FILE: lifecycle.dfy ===
/** The calls the listener makes on its lifecycle sink, as a trace of events,
    and an abstract sink that gives those calls their meaning for test results.

    The sink keeps, per test id, the status and details set so far and how far
    the test has got (scheduled, running, stopped, written), plus the "current"
    test of the calling thread that the argument-less calls act on. The model
    takes the current test to be the one most recently started. Calls naming an
    id the sink does not hold change nothing. Container bookkeeping and
    persistence are not part of the sink model. */
module Lifecycle {
  import opened Wrappers
  import opened ResultModel

  /** Which test a call acts on: a given id, or the sink's current test. */
  datatype Target = ById(id: string) | Current

  /** What an update does to a test's status. */
  datatype Change =
    | MarkPassedIfUnset
    | SetOutcome(status: Status, details: StatusDetails)

  datatype Event =
    | StartContainer(parent: Option<string>, id: string, name: string)
    | Schedule(containerId: string, result: TestResult)
    | Start(testId: string)
    | Update(target: Target, change: Change)
    | Stop(target: Target)
    | Write(target: Target)
    | StopContainer(id: string)
    | WriteContainer(id: string)

  /** The container calls, in trace order. */
  function ContainerStarts(es: seq<Event>): seq<string>
  {
    if es == [] then []
    else (if es[0].StartContainer? then [es[0].id] else []) + ContainerStarts(es[1..])
  }

  function ContainerStops(es: seq<Event>): seq<string>
  {
    if es == [] then []
    else (if es[0].StopContainer? then [es[0].id] else []) + ContainerStops(es[1..])
  }

  function ContainerWrites(es: seq<Event>): seq<string>
  {
    if es == [] then []
    else (if es[0].WriteContainer? then [es[0].id] else []) + ContainerWrites(es[1..])
  }

  /** The container ids listed as started are exactly those of the trace's
      container starts; likewise for stops and writes. */
  lemma ContainerCallsContent(es: seq<Event>)
    ensures forall id :: id in ContainerStarts(es) <==>
              exists i :: 0 <= i < |es| && es[i].StartContainer? && es[i].id == id
    ensures forall id :: id in ContainerStops(es) <==>
              exists i :: 0 <= i < |es| && es[i].StopContainer? && es[i].id == id
    ensures forall id :: id in ContainerWrites(es) <==>
              exists i :: 0 <= i < |es| && es[i].WriteContainer? && es[i].id == id
  {
    StartsContent(es);
    StopsContent(es);
    WritesContent(es);
  }

  lemma {:induction false} StartsContent(es: seq<Event>)
    ensures forall id :: id in ContainerStarts(es) <==>
              exists i :: 0 <= i < |es| && es[i].StartContainer? && es[i].id == id
    decreases |es|
  {
    if es != [] {
      StartsContent(es[1..]);
      assert forall i :: 0 <= i < |es[1..]| ==> es[1..][i] == es[i + 1];
      forall id | exists i :: 0 <= i < |es| && es[i].StartContainer? && es[i].id == id
        ensures id in ContainerStarts(es)
      {
        var i :| 0 <= i < |es| && es[i].StartContainer? && es[i].id == id;
        if i > 0 {
          assert es[1..][i - 1] == es[i];
        }
      }
    }
  }

  lemma {:induction false} StopsContent(es: seq<Event>)
    ensures forall id :: id in ContainerStops(es) <==>
              exists i :: 0 <= i < |es| && es[i].StopContainer? && es[i].id == id
    decreases |es|
  {
    if es != [] {
      StopsContent(es[1..]);
      assert forall i :: 0 <= i < |es[1..]| ==> es[1..][i] == es[i + 1];
      forall id | exists i :: 0 <= i < |es| && es[i].StopContainer? && es[i].id == id
        ensures id in ContainerStops(es)
      {
        var i :| 0 <= i < |es| && es[i].StopContainer? && es[i].id == id;
        if i > 0 {
          assert es[1..][i - 1] == es[i];
        }
      }
    }
  }

  lemma {:induction false} WritesContent(es: seq<Event>)
    ensures forall id :: id in ContainerWrites(es) <==>
              exists i :: 0 <= i < |es| && es[i].WriteContainer? && es[i].id == id
    decreases |es|
  {
    if es != [] {
      WritesContent(es[1..]);
      assert forall i :: 0 <= i < |es[1..]| ==> es[1..][i] == es[i + 1];
      forall id | exists i :: 0 <= i < |es| && es[i].WriteContainer? && es[i].id == id
        ensures id in ContainerWrites(es)
      {
        var i :| 0 <= i < |es| && es[i].WriteContainer? && es[i].id == id;
        if i > 0 {
          assert es[1..][i - 1] == es[i];
        }
      }
    }
  }

  /** The container calls of a concatenation are those of its two parts. */
  lemma ContainerCallsAppend(a: seq<Event>, b: seq<Event>)
    ensures ContainerStarts(a + b) == ContainerStarts(a) + ContainerStarts(b)
    ensures ContainerStops(a + b) == ContainerStops(a) + ContainerStops(b)
    ensures ContainerWrites(a + b) == ContainerWrites(a) + ContainerWrites(b)
  {
    StartsAppend(a, b);
    StopsAppend(a, b);
    WritesAppend(a, b);
  }

  lemma {:induction false} StartsAppend(a: seq<Event>, b: seq<Event>)
    ensures ContainerStarts(a + b) == ContainerStarts(a) + ContainerStarts(b)
  {
    if a == [] {
      assert a + b == b;
    } else {
      assert (a + b)[0] == a[0] && (a + b)[1..] == a[1..] + b;
      StartsAppend(a[1..], b);
    }
  }

  lemma {:induction false} StopsAppend(a: seq<Event>, b: seq<Event>)
    ensures ContainerStops(a + b) == ContainerStops(a) + ContainerStops(b)
  {
    if a == [] {
      assert a + b == b;
    } else {
      assert (a + b)[0] == a[0] && (a + b)[1..] == a[1..] + b;
      StopsAppend(a[1..], b);
    }
  }

  lemma {:induction false} WritesAppend(a: seq<Event>, b: seq<Event>)
    ensures ContainerWrites(a + b) == ContainerWrites(a) + ContainerWrites(b)
  {
    if a == [] {
      assert a + b == b;
    } else {
      assert (a + b)[0] == a[0] && (a + b)[1..] == a[1..] + b;
      WritesAppend(a[1..], b);
    }
  }

  /** Every container write comes right after the stop of the same container. */
  predicate StoppedBeforeWritten(es: seq<Event>)
  {
    forall i {:trigger es[i].WriteContainer?} :: 0 <= i < |es| && es[i].WriteContainer? ==> 0 < i && es[i - 1] == StopContainer(es[i].id)
  }

  /** Stopping and then writing one container: the listener's finalizeContainer. */
  function Finalize(id: string): seq<Event>
  {
    [StopContainer(id), WriteContainer(id)]
  }

  function FinalizeAll(ids: seq<string>): seq<Event>
  {
    if ids == [] then [] else Finalize(ids[0]) + FinalizeAll(ids[1..])
  }

  lemma {:induction false} FinalizeAllAppend(a: seq<string>, b: seq<string>)
    ensures FinalizeAll(a + b) == FinalizeAll(a) + FinalizeAll(b)
  {
    if a == [] {
      assert a + b == b;
    } else {
      assert (a + b)[0] == a[0] && (a + b)[1..] == a[1..] + b;
      FinalizeAllAppend(a[1..], b);
    }
  }

  /** Finalizing a list of containers stops and writes each of them once, in
      list order, each write right after its own stop, and starts nothing. */
  lemma {:induction false} FinalizeAllCalls(ids: seq<string>)
    ensures ContainerStops(FinalizeAll(ids)) == ids
    ensures ContainerWrites(FinalizeAll(ids)) == ids
    ensures ContainerStarts(FinalizeAll(ids)) == []
    ensures StoppedBeforeWritten(FinalizeAll(ids))
    ensures FinalizeAll(ids) != [] ==> FinalizeAll(ids)[0].StopContainer?
    ensures forall i :: 0 <= i < |FinalizeAll(ids)| ==>
      FinalizeAll(ids)[i].StopContainer? || FinalizeAll(ids)[i].WriteContainer?
  {
    if ids != [] {
      FinalizeAllCalls(ids[1..]);
      ContainerCallsAppend(Finalize(ids[0]), FinalizeAll(ids[1..]));
      assert ids == [ids[0]] + ids[1..];
    }
  }

  /** A stretch that writes no container followed by one that starts with a
      stop keeps every write right after its stop. */
  lemma StoppedBeforeWrittenAppend(a: seq<Event>, b: seq<Event>)
    requires forall i :: 0 <= i < |a| ==> !a[i].WriteContainer?
    requires StoppedBeforeWritten(b)
    requires b != [] ==> !b[0].WriteContainer?
    ensures StoppedBeforeWritten(a + b)
  {
    var c := a + b;
    forall i | 0 <= i < |c| && c[i].WriteContainer?
      ensures 0 < i && c[i - 1] == StopContainer(c[i].id)
    {
      assert i >= |a| && c[i] == b[i - |a|];
      assert c[i - 1] == b[i - 1 - |a|];
    }
  }

  /** How far a test has got in the sink. */
  datatype Phase = Scheduled | Running | Stopped | Written

  datatype Entry = Entry(status: Option<Status>, details: Option<StatusDetails>, phase: Phase)

  datatype Sink = Sink(current: Option<string>, tests: map<string, Entry>)

  function Resolve(k: Sink, t: Target): Option<string>
  {
    match t
    case ById(id) => Some(id)
    case Current => k.current
  }

  /** The effect of an update on one entry. */
  function ApplyChange(e: Entry, c: Change): (r: Entry)
    ensures r.phase == e.phase
    ensures r.status.Some?
    ensures c.MarkPassedIfUnset? ==> r.details == e.details
    ensures c.MarkPassedIfUnset? && e.status.Some? ==> r.status == e.status
    ensures c.MarkPassedIfUnset? && e.status.None? ==> r.status == Some(PASSED)
    ensures c.SetOutcome? ==> r.status == Some(c.status) && r.details == Some(c.details)
  {
    match c
    case MarkPassedIfUnset => if e.status.None? then e.(status := Some(PASSED)) else e
    case SetOutcome(st, det) => e.(status := Some(st), details := Some(det))
  }

  /** Marking a test passed only when it has no status yet is idempotent, and
      it never replaces a status a failure has set. */
  lemma MarkPassedIdempotent(e: Entry, st: Status, det: StatusDetails)
    ensures ApplyChange(ApplyChange(e, MarkPassedIfUnset), MarkPassedIfUnset) == ApplyChange(e, MarkPassedIfUnset)
    ensures ApplyChange(ApplyChange(e, SetOutcome(st, det)), MarkPassedIfUnset) == ApplyChange(e, SetOutcome(st, det))
  {
  }

  /** Moves a held test to a new phase; an unknown id changes nothing. */
  function SetPhase(k: Sink, t: Target, p: Phase): Sink
  {
    match Resolve(k, t)
    case Some(id) => if id in k.tests then k.(tests := k.tests[id := k.tests[id].(phase := p)]) else k
    case None => k
  }

  /** Applies an update to a held test; an unknown id changes nothing. */
  function UpdateEntry(k: Sink, t: Target, c: Change): Sink
  {
    match Resolve(k, t)
    case Some(id) => if id in k.tests then k.(tests := k.tests[id := ApplyChange(k.tests[id], c)]) else k
    case None => k
  }

  function Apply(k: Sink, e: Event): Sink
  {
    match e
    case Schedule(_, tr) =>
      k.(tests := k.tests[tr.uuid := Entry(tr.status, tr.statusDetails, Scheduled)])
    case Start(id) =>
      if id in k.tests then Sink(Some(id), k.tests[id := k.tests[id].(phase := Running)]) else k
    case Update(t, c) => UpdateEntry(k, t, c)
    case Stop(t) => SetPhase(k, t, Stopped)
    case Write(t) => SetPhase(k, t, Written)
    case StartContainer(_, _, _) => k
    case StopContainer(_) => k
    case WriteContainer(_) => k
  }

  function ApplyAll(k: Sink, es: seq<Event>): Sink
    decreases |es|
  {
    if es == [] then k else ApplyAll(Apply(k, es[0]), es[1..])
  }

  lemma {:induction false} ApplyAllAppend(k: Sink, a: seq<Event>, b: seq<Event>)
    ensures ApplyAll(k, a + b) == ApplyAll(ApplyAll(k, a), b)
    decreases |a|
  {
    if a == [] {
      assert a + b == b;
    } else {
      assert (a + b)[0] == a[0] && (a + b)[1..] == a[1..] + b;
      ApplyAllAppend(Apply(k, a[0]), a[1..], b);
    }
  }

  lemma ApplyAllSteps(k: Sink, es: seq<Event>)
    requires es != []
    ensures ApplyAll(k, es) == ApplyAll(Apply(k, es[0]), es[1..])
    ensures |es| == 1 ==> ApplyAll(k, es) == Apply(k, es[0])
  {
  }

  /** Two calls in a row. */
  lemma ApplyAllTwo(k: Sink, e1: Event, e2: Event)
    ensures ApplyAll(k, [e1, e2]) == Apply(Apply(k, e1), e2)
  {
    ApplyAllSteps(k, [e1, e2]);
    assert [e1, e2][1..] == [e2];
    ApplyAllSteps(Apply(k, e1), [e2]);
  }

  /** Scheduling then starting a test leaves it running and current. */
  lemma ScheduleThenStart(k: Sink, cid: string, tr: TestResult)
    ensures ApplyAll(k, [Schedule(cid, tr), Start(tr.uuid)]) ==
      Sink(Some(tr.uuid), k.tests[tr.uuid := Entry(tr.status, tr.statusDetails, Running)])
  {
    ApplyAllTwo(k, Schedule(cid, tr), Start(tr.uuid));
  }

  /** Stopping and then writing a held test by id leaves it written. */
  lemma StopThenWrite(k: Sink, id: string)
    requires id in k.tests
    ensures ApplyAll(k, [Stop(ById(id)), Write(ById(id))]) ==
      k.(tests := k.tests[id := k.tests[id].(phase := Written)])
  {
    ApplyAllTwo(k, Stop(ById(id)), Write(ById(id)));
  }

  /** Scheduling, starting, stopping and writing a test by id leaves it
      written, with the status and details it was scheduled with. */
  lemma ScheduleToWrite(k: Sink, cid: string, tr: TestResult)
    ensures ApplyAll(k, [Schedule(cid, tr), Start(tr.uuid), Stop(ById(tr.uuid)), Write(ById(tr.uuid))]) ==
      Sink(Some(tr.uuid), k.tests[tr.uuid := Entry(tr.status, tr.statusDetails, Written)])
  {
    var front := [Schedule(cid, tr), Start(tr.uuid)];
    var back := [Stop(ById(tr.uuid)), Write(ById(tr.uuid))];
    ScheduleThenStart(k, cid, tr);
    StopThenWrite(ApplyAll(k, front), tr.uuid);
    ApplyAllAppend(k, front, back);
    assert front + back == [Schedule(cid, tr), Start(tr.uuid), Stop(ById(tr.uuid)), Write(ById(tr.uuid))];
  }

  /** The argument-less finish calls on the current test: it is stopped and
      written, and gets PASSED only when it has no status yet. */
  lemma FinishCurrent(k: Sink, id: string)
    requires k.current == Some(id) && id in k.tests
    ensures var e := k.tests[id];
            ApplyAll(k, [Update(Current, MarkPassedIfUnset), Stop(Current), Write(Current)]) ==
            k.(tests := k.tests[id := Entry(if e.status.Some? then e.status else Some(PASSED), e.details, Written)])
  {
    var e := k.tests[id];
    var marked := ApplyChange(e, MarkPassedIfUnset);
    var k1 := UpdateEntry(k, Current, MarkPassedIfUnset);
    var k2 := SetPhase(k1, Current, Stopped);
    FinishSteps(k);
    MarkCurrent(k, id);
    assert k2 == k.(tests := k.tests[id := marked.(phase := Stopped)]) by {
      CurrentPhase(k1, id, Stopped);
      UpdateTwice(k.tests, id, marked, marked.(phase := Stopped));
    }
    assert SetPhase(k2, Current, Written) == k.(tests := k.tests[id := marked.(phase := Written)]) by {
      CurrentPhase(k2, id, Written);
      UpdateTwice(k.tests, id, marked.(phase := Stopped), marked.(phase := Written));
    }
  }

  /** The finish calls, one at a time. */
  lemma FinishSteps(k: Sink)
    ensures ApplyAll(k, [Update(Current, MarkPassedIfUnset), Stop(Current), Write(Current)])
         == SetPhase(SetPhase(UpdateEntry(k, Current, MarkPassedIfUnset), Current, Stopped), Current, Written)
  {
    ApplyAllThree(k, Update(Current, MarkPassedIfUnset), Stop(Current), Write(Current));
  }

  /** Marking the current test. */
  lemma MarkCurrent(k: Sink, id: string)
    requires k.current == Some(id) && id in k.tests
    ensures UpdateEntry(k, Current, MarkPassedIfUnset) == k.(tests := k.tests[id := ApplyChange(k.tests[id], MarkPassedIfUnset)])
  {
  }

  /** Three calls in a row. */
  lemma ApplyAllThree(k: Sink, e1: Event, e2: Event, e3: Event)
    ensures ApplyAll(k, [e1, e2, e3]) == Apply(Apply(Apply(k, e1), e2), e3)
  {
    ApplyAllSteps(k, [e1, e2, e3]);
    assert [e1, e2, e3][1..] == [e2, e3];
    ApplyAllTwo(Apply(k, e1), e2, e3);
  }

  /** Moving the current test to a phase. */
  lemma CurrentPhase(k: Sink, id: string, p: Phase)
    requires k.current == Some(id) && id in k.tests
    ensures SetPhase(k, Current, p) == k.(tests := k.tests[id := k.tests[id].(phase := p)])
  {
  }

  /** A second update of the same key replaces the first. */
  lemma UpdateTwice<V>(m: map<string, V>, id: string, a: V, b: V)
    ensures m[id := a][id := b] == m[id := b]
  {
  }

  /** A test scheduled, started, given an outcome by id and then finished
      through the current-test calls is written with that outcome. */
  lemma OutcomeThenFinish(k: Sink, cid: string, tr: TestResult, st: Status, det: StatusDetails)
    ensures var es := [Schedule(cid, tr), Start(tr.uuid), Update(ById(tr.uuid), SetOutcome(st, det)),
                       Update(Current, MarkPassedIfUnset), Stop(Current), Write(Current)];
            ApplyAll(k, es) == Sink(Some(tr.uuid), k.tests[tr.uuid := Entry(Some(st), Some(det), Written)])
  {
    var start := [Schedule(cid, tr), Start(tr.uuid)];
    var rest := [Update(ById(tr.uuid), SetOutcome(st, det)), Update(Current, MarkPassedIfUnset), Stop(Current), Write(Current)];
    var running := Entry(tr.status, tr.statusDetails, Running);
    var written := Entry(Some(st), Some(det), Written);
    var k2 := ApplyAll(k, start);
    assert k2 == Sink(Some(tr.uuid), k.tests[tr.uuid := running]) by {
      ScheduleThenStart(k, cid, tr);
    }
    assert ApplyAll(k2, rest) == Sink(Some(tr.uuid), k.tests[tr.uuid := written]) by {
      OutcomeThenFinishCurrent(k2, tr.uuid, st, det);
      UpdateTwice(k.tests, tr.uuid, running, written);
    }
    assert ApplyAll(k, start + rest) == ApplyAll(k2, rest) by {
      ApplyAllAppend(k, start, rest);
    }
    assert start + rest == [Schedule(cid, tr), Start(tr.uuid), Update(ById(tr.uuid), SetOutcome(st, det)),
                            Update(Current, MarkPassedIfUnset), Stop(Current), Write(Current)];
  }

  /** An outcome set by id on the current test, then the finish calls. */
  lemma OutcomeThenFinishCurrent(k: Sink, id: string, st: Status, det: StatusDetails)
    requires k.current == Some(id) && id in k.tests
    ensures ApplyAll(k, [Update(ById(id), SetOutcome(st, det)), Update(Current, MarkPassedIfUnset), Stop(Current), Write(Current)])
            == k.(tests := k.tests[id := Entry(Some(st), Some(det), Written)])
  {
    var es := [Update(ById(id), SetOutcome(st, det)), Update(Current, MarkPassedIfUnset), Stop(Current), Write(Current)];
    ApplyAllSteps(k, es);
    var k1 := Apply(k, es[0]);
    assert k1 == k.(tests := k.tests[id := k.tests[id].(status := Some(st), details := Some(det))]);
    assert es[1..] == [Update(Current, MarkPassedIfUnset), Stop(Current), Write(Current)];
    FinishCurrent(k1, id);
  }

  /** Container calls leave the sink's test records alone. */
  lemma {:induction false} ContainerCallsKeepTests(k: Sink, es: seq<Event>)
    requires forall i :: 0 <= i < |es| ==> es[i].StartContainer? || es[i].StopContainer? || es[i].WriteContainer?
    ensures ApplyAll(k, es) == k
    decreases |es|
  {
    if es != [] {
      ContainerCallsKeepTests(k, es[1..]);
    }
  }
}

=== FILE: listener_invariant.dfy ===
/** What every callback keeps true of the listener's state: ids in use were
    all drawn from the id source, no two registered classes share a container,
    the run root is not a class container, and a class container only exists
    while there is a run id to hang it under. */
module ListenerInvariant {
  import opened Wrappers
  import opened ResultModel
  import opened Lifecycle
  import opened RunListener
  import FreshIds

  predicate Valid(s: State)
  {
    && (s.runId.Some? ==> FreshIds.Issued(s.runId.value, s.nextId))
    && (forall c :: c in s.containers ==> FreshIds.Issued(s.containers[c], s.nextId))
    && (forall c1, c2 :: c1 in s.containers && c2 in s.containers && c1 != c2 ==>
          s.containers[c1] != s.containers[c2])
    && (s.runId.Some? ==> s.runId.value !in s.containers.Values)
    && (s.containers != map[] ==> s.runId.Some?)
  }

  lemma NewListenerValid()
    ensures Valid(NewListener())
  {
  }

  /** Reading the run id keeps the state valid. */
  lemma CurrentRunIdValid(s: State)
    requires Valid(s)
    ensures Valid(CurrentRunId(s).1)
  {
    if s.runId.None? {
      FreshIds.FreshIdIsNew(s.nextId, "");
    }
  }

  /** Getting or creating a class container keeps the state valid: a new
      container's uuid differs from every uuid already in use, the run root's
      included. */
  lemma {:induction false} GetContainerValid(meta: Metadata, s: State, d: Description)
    requires Valid(s)
    ensures Valid(GetContainer(meta, s, d).1.state)
  {
    if d.className !in s.containers {
      var n := s.nextId;
      var id := FreshIds.FreshId(n);
      var s' := GetContainer(meta, s, d).1.state;
      FreshIds.FreshIdIsNew(n, "");
      forall c | c in s.containers
        ensures FreshIds.Issued(s.containers[c], s'.nextId) && s.containers[c] != id
      {
        FreshIds.FreshIdIsNew(n, s.containers[c]);
      }
      match s.runId
      case Some(root) =>
        FreshIds.FreshIdIsNew(n, root);
        assert root !in s'.containers.Values;
      case None =>
        var root := FreshIds.FreshId(n + 1);
        FreshIds.FreshIdIsNew(n + 1, "");
        FreshIds.FreshIdInjective(n, n + 1);
        assert s'.containers == map[d.className := id];
    }
  }

  /** Every callback keeps the state valid. */
  lemma {:induction false} DispatchValid(meta: Metadata, s: State, cb: Callback)
    requires Valid(s) && Deliverable(s, cb)
    ensures Valid(Dispatch(meta, s, cb).state)
  {
    match cb
    case RunStarted => CurrentRunIdValid(s);
    case RunStartedWith(_) =>
    case Started(d) =>
      CurrentRunIdValid(s);
      GetContainerValid(meta, CurrentRunId(s).1, d);
    case Ignored(d) =>
      CurrentRunIdValid(s);
      GetContainerValid(meta, CurrentRunId(s).1, d);
    case Finished(_) =>
    case Failed(f) =>
      if Targets(f.description) != [] { CurrentRunIdValid(s); }
    case AssumptionFailed(f) =>
      if Targets(f.description) != [] { CurrentRunIdValid(s); }
    case RunFinished(_) =>
  }

  /** Asking twice for the container of the same class yields the same
      container, and the second time nothing is started. */
  lemma GetContainerOnce(meta: Metadata, s: State, d: Description, d': Description)
    requires d'.className == d.className
    ensures var (id, st) := GetContainer(meta, s, d);
            GetContainer(meta, st.state, d') == (id, Step(st.state, []))
  {
  }

  /** A class already holding a container gets no new one: the test is
      scheduled into the registered container and the registry is unchanged. */
  lemma StartedReusesContainer(meta: Metadata, s: State, d: Description)
    requires d.className in s.containers
    ensures var r := TestStarted(meta, s, d);
            && r.state.containers == s.containers
            && ContainerStarts(r.events) == []
            && r.events[0] == Schedule(s.containers[d.className], CreateTestResult(meta, RunIdOf(s), d))
  {
    var r := TestStarted(meta, s, d);
    TestStartedCalls(meta, s, d);
    assert r.events == r.events[|r.events| - 2..];
    assert ContainerStarts(r.events[1..]) == [] by {
      assert r.events[1..][1..] == [];
    }
  }

  /** After a run ends, the next run's root gets a uuid never used before,
      in particular not the previous root's. */
  lemma {:induction false} NextRunGetsNewRoot(s: State, order: seq<string>)
    requires Valid(s) && s.runId.Some?
    requires Collections.IsEnumeration(order, s.containers.Keys)
    ensures var next := TestRunStarted(TestRunFinished(s, order).state);
            next.events[0].id != s.runId.value && next.events[0].id !in s.containers.Values
  {
    var s' := TestRunFinished(s, order).state;
    assert s'.nextId == s.nextId;
    FreshIds.FreshIdIsNew(s.nextId, s.runId.value);
    forall c | c in s.containers ensures s.containers[c] != FreshIds.FreshId(s.nextId) {
      FreshIds.FreshIdIsNew(s.nextId, s.containers[c]);
    }
  }
}

=== FILE: recording.dfy ===
/** What the sink ends up recording for a test when the listener's calls are
    applied to it: the status a finished test is written with, the record of an
    ignored test, and where a failure's status lands. */
module Recording {
  import opened Wrappers
  import opened ResultModel
  import opened Lifecycle
  import opened RunListener

  /** The calls before the last `n` of a callback are container starts only. */
  lemma ContainerPrefix(k: Sink, es: seq<Event>, n: nat)
    requires n <= |es|
    requires |es| == n || (|es| == n + 1 && es[0].StartContainer?)
    ensures ApplyAll(k, es) == ApplyAll(k, es[|es| - n..])
  {
    var pre := es[..|es| - n];
    assert es == pre + es[|es| - n..];
    ContainerCallsKeepTests(k, pre);
    ApplyAllAppend(k, pre, es[|es| - n..]);
  }

  /** testStarted leaves the new test scheduled-and-running with no status,
      makes it the sink's current test, and touches no other test. */
  lemma StartedTestRunning(meta: Metadata, s: State, d: Description, k: Sink)
    ensures var id := TestUuid(RunIdOf(s), d);
            var k' := ApplyAll(k, TestStarted(meta, s, d).events);
            && k'.current == Some(id)
            && k'.tests == k.tests[id := Entry(None, None, Running)]
  {
    var r := TestStarted(meta, s, d);
    ContainerPrefix(k, r.events, 2);
    ScheduleThenStart(k, r.state.containers[d.className], CreateTestResult(meta, RunIdOf(s), d));
  }

  /** testFinished acts on the current test only: it is stopped and written,
      and its status becomes PASSED only if no status was set before; a status
      a failure has set is kept. */
  lemma FinishedKeepsStatus(s: State, d: Description, k: Sink, id: string)
    requires k.current == Some(id) && id in k.tests
    ensures var k' := ApplyAll(k, TestFinished(s, d).events);
            var e := k.tests[id];
            && k'.current == k.current
            && k'.tests == k.tests[id := Entry(if e.status.Some? then e.status else Some(PASSED), e.details, Written)]
  {
    FinishCurrent(k, id);
  }

  /** Applying one outcome update per id sets that outcome on every held test
      among the ids, and leaves phases, the current test and all other tests
      as they were. */
  lemma {:induction false} OutcomesApplied(k: Sink, es: seq<Event>, ids: seq<string>, st: Status, det: StatusDetails)
    requires |es| == |ids|
    requires forall i :: 0 <= i < |es| ==> es[i] == Update(ById(ids[i]), SetOutcome(st, det))
    ensures var k' := ApplyAll(k, es);
            && k'.current == k.current
            && k'.tests.Keys == k.tests.Keys
            && forall id :: id in k.tests ==>
                 k'.tests[id] == if id in ids then k.tests[id].(status := Some(st), details := Some(det)) else k.tests[id]
    decreases |es|
  {
    if es != [] {
      var c := SetOutcome(st, det);
      var k1 := Apply(k, es[0]);
      assert k1.current == k.current && k1.tests.Keys == k.tests.Keys;
      assert forall id :: id in k.tests ==>
        k1.tests[id] == if id == ids[0] then k.tests[id].(status := Some(st), details := Some(det)) else k.tests[id];
      OutcomesApplied(k1, es[1..], ids[1..], st, det);
      ApplyAllSteps(k, es);
      assert forall id :: id in ids <==> id == ids[0] || id in ids[1..] by {
        assert ids == [ids[0]] + ids[1..];
      }
    }
  }

  /** A failure puts the classified status and details on each test it is
      reported against that the sink holds, and stops or writes nothing. */
  lemma FailureRecorded(meta: Metadata, s: State, f: Failure, k: Sink)
    ensures var ids := TargetIds(RunIdOf(s), f.description);
            var k' := ApplyAll(k, WithException(meta, s, f).events);
            && k'.current == k.current
            && k'.tests.Keys == k.tests.Keys
            && forall id :: id in k.tests ==>
                 k'.tests[id] == if id in ids
                                 then k.tests[id].(status := Some(meta.statusOf(f.exception)),
                                                   details := Some(meta.detailsOf(f.exception)))
                                 else k.tests[id]
  {
    OutcomesApplied(k, WithException(meta, s, f).events, TargetIds(RunIdOf(s), f.description),
                    meta.statusOf(f.exception), meta.detailsOf(f.exception));
  }

  /** A test that starts and finishes with no failure is written as PASSED,
      and no other test changes. */
  lemma PassedTestReport(meta: Metadata, s: State, d: Description, k: Sink)
    ensures var started := TestStarted(meta, s, d);
            var finished := TestFinished(started.state, d);
            var k' := ApplyAll(k, started.events + finished.events);
            k'.tests == k.tests[TestUuid(RunIdOf(s), d) := Entry(Some(PASSED), None, Written)]
  {
    var started := TestStarted(meta, s, d);
    var finished := TestFinished(started.state, d);
    var id := TestUuid(RunIdOf(s), d);
    var k1 := ApplyAll(k, started.events);
    assert k1.current == Some(id) && k1.tests == k.tests[id := Entry(None, None, Running)] by {
      StartedTestRunning(meta, s, d, k);
    }
    assert ApplyAll(k1, finished.events).tests == k.tests[id := Entry(Some(PASSED), None, Written)] by {
      FinishCurrent(k1, id);
      UpdateTwice(k.tests, id, Entry(None, None, Running), Entry(Some(PASSED), None, Written));
    }
    ApplyAllAppend(k, started.events, finished.events);
  }

  /** started, failed, finished: the test is written with the failure's
      classified status and details, not with PASSED. The same holds for an
      assumption failure, which is handled identically. */
  lemma FailedTestReport(meta: Metadata, s: State, d: Description, e: Throwable, k: Sink)
    requires d.isTest
    ensures var started := TestStarted(meta, s, d);
            var failed := TestFailure(meta, started.state, Failure(d, e));
            var finished := TestFinished(failed.state, d);
            var k' := ApplyAll(k, started.events + failed.events + finished.events);
            var id := TestUuid(RunIdOf(s), d);
            id in k'.tests && k'.tests[id] == Entry(Some(meta.statusOf(e)), Some(meta.detailsOf(e)), Written)
  {
    var started := TestStarted(meta, s, d);
    var failed := TestFailure(meta, started.state, Failure(d, e));
    var finished := TestFinished(failed.state, d);
    var tr := CreateTestResult(meta, RunIdOf(s), d);
    var cid := started.state.containers[d.className];
    var n := |started.events|;
    var pre := started.events[..n - 2];
    assert started.events == pre + [Schedule(cid, tr), Start(tr.uuid)];
    assert RunIdOf(started.state) == RunIdOf(s);
    assert failed.events == [Update(ById(tr.uuid), SetOutcome(meta.statusOf(e), meta.detailsOf(e)))];
    var cycle := [Schedule(cid, tr), Start(tr.uuid), Update(ById(tr.uuid), SetOutcome(meta.statusOf(e), meta.detailsOf(e))),
                  Update(Current, MarkPassedIfUnset), Stop(Current), Write(Current)];
    assert started.events + failed.events + finished.events == pre + cycle;
    ContainerCallsKeepTests(k, pre);
    ApplyAllAppend(k, pre, cycle);
    OutcomeThenFinish(k, cid, tr, meta.statusOf(e), meta.detailsOf(e));
  }

  /** An ignored test is written, with no further callback, as SKIPPED with
      the ignore reason (or the no-reason message) as its details. */
  lemma IgnoredTestReport(meta: Metadata, s: State, d: Description, k: Sink)
    ensures var id := TestUuid(RunIdOf(s), d);
            var k' := ApplyAll(k, TestIgnored(meta, s, d).events);
            && k'.current == Some(id)
            && k'.tests == k.tests[id := Entry(Some(SKIPPED), Some(IgnoredMessage(d)), Written)]
  {
    var r := TestIgnored(meta, s, d);
    ContainerPrefix(k, r.events, 4);
    ScheduleToWrite(k, r.state.containers[d.className], IgnoredResult(meta, RunIdOf(s), d));
  }

  /** A failure of a suite reaches every direct child the sink holds, each
      with the same status and details, and keeps each child's phase. */
  lemma SuiteFailureReport(meta: Metadata, s: State, suite: Description, e: Throwable, k: Sink)
    requires !suite.isTest
    ensures var k' := ApplyAll(k, TestFailure(meta, s, Failure(suite, e)).events);
            forall c :: c in suite.children && TestUuid(RunIdOf(s), c) in k.tests ==>
              var id := TestUuid(RunIdOf(s), c);
              id in k'.tests && k'.tests[id] == k.tests[id].(status := Some(meta.statusOf(e)), details := Some(meta.detailsOf(e)))
  {
    FailureRecorded(meta, s, Failure(suite, e), k);
    var ids := TargetIds(RunIdOf(s), suite);
    forall c | c in suite.children ensures TestUuid(RunIdOf(s), c) in ids {
      var i :| 0 <= i < |suite.children| && suite.children[i] == c;
      assert ids[i] == TestUuid(RunIdOf(s), c);
    }
  }
}

=== FILE: result_model.dfy ===
/** The report entities the listener builds and the JUnit values it receives.

    Only the fields the listener reads or writes are kept. Timestamps, stage,
    steps, attachments and parameters of an executable item are not modelled. */
module ResultModel {
  import opened Wrappers

  /** The outcome of a test. A test result starts with no status at all
      (`None`), which is what lets a later callback tell "not yet decided"
      from a decided outcome. */
  datatype Status = PASSED | FAILED | BROKEN | SKIPPED

  datatype StatusDetails = StatusDetails(message: Option<string>, trace: Option<string>)

  /** A key/value label. The value is nullable: a suite description has no method name. */
  datatype Label = Label(name: string, value: Option<string>)

  datatype Link = Link(name: string, url: string)

  /** A test result as the listener creates it. `status` and `statusDetails`
      are the nullable fields of the executable item, both unset by default. */
  datatype TestResult = TestResult(
    uuid: string,
    historyId: string,
    name: string,
    fullName: string,
    links: seq<Link>,
    labels: seq<Label>,
    status: Option<Status>,
    statusDetails: Option<StatusDetails>)

  /** A JUnit description: a single test (`isTest`) or a suite with children.
      `methodName` is absent for a class-level description; `ignore` holds the
      value of an `@Ignore` annotation when there is one. */
  datatype Description = Description(
    className: string,
    methodName: Option<string>,
    isTest: bool,
    children: seq<Description>,
    ignore: Option<string>)

  /** The exception carried by a JUnit failure, as far as the model sees it. */
  datatype Throwable = Throwable(typeName: string, message: Option<string>)

  datatype Failure = Failure(description: Description, exception: Throwable)

  /** The summary JUnit hands over at run end; the listener ignores it. */
  datatype RunSummary = RunSummary(runCount: nat, failureCount: nat, ignoreCount: nat)

  /** The collaborators the listener calls but does not define: the metadata
      extractors (pure functions of a description) and the classification of
      an exception into a status and status details. */
  datatype Metadata = Metadata(
    historyId: Description -> string,
    methodDisplayName: Description -> string,
    classDisplayName: Description -> string,
    packageOf: Description -> string,
    labels: Description -> seq<Label>,
    links: Description -> seq<Link>,
    statusOf: Throwable -> Status,
    detailsOf: Throwable -> StatusDetails)
}

=== FILE: run_listener.dfy ===
/** The JUnit run listener: six lifecycle callbacks turned into calls on the
    lifecycle sink.

    The listener's state is the run id of the (single, sequential) calling
    thread, minted lazily from the id source and cleared at run end, and the
    registry of open class containers keyed by class name. Each callback is a
    pure transition returning the new state and the sink calls it makes, in
    order. */
module RunListener {
  import opened Wrappers
  import opened Collections
  import opened ResultModel
  import opened Lifecycle
  import FreshIds

  /** Name of the root container started when the run starts. */
  const RootContainerName := "TESTS"

  /** Status message of an ignored test whose `@Ignore` gives no reason. */
  const NoReasonMessage := "Test ignored (without reason)!"

  /** `runId` is the thread's run id (None until first asked for, and again
      after run end); `containers` maps a class name to the uuid of its open
      container; `nextId` is the position of the id source. */
  datatype State = State(runId: Option<string>, containers: map<string, string>, nextId: nat)

  /** A listener that has not handed out anything yet. */
  function NewListener(): State
  {
    State(None, map[], 0)
  }

  /** The state after a callback and the sink calls the callback made. */
  datatype Step = Step(state: State, events: seq<Event>)

  /** The id the thread's run-id slot yields: the stored one, or the next
      id from the id source when nothing is stored. */
  function RunIdOf(s: State): string
  {
    if s.runId.Some? then s.runId.value else FreshIds.FreshId(s.nextId)
  }

  /** Reads the thread's run id, storing a freshly minted one on first use. */
  function CurrentRunId(s: State): (r: (string, State))
    ensures r.0 == RunIdOf(s)
    ensures r.1.runId == Some(r.0) && r.1.containers == s.containers
    ensures s.runId.Some? ==> r.1 == s
    ensures s.runId.None? ==> r.1.nextId == s.nextId + 1
  {
    match s.runId
    case Some(id) => (id, s)
    case None =>
      var id := FreshIds.FreshId(s.nextId);
      (id, s.(runId := Some(id), nextId := s.nextId + 1))
  }

  /** A nullable name as a string template prints it. */
  function Text(name: Option<string>): string
  {
    name.GetOr("null")
  }

  /** The id of a test result: derived from the run id, the class name and
      the method name only. */
  function TestUuid(runId: string, d: Description): string
  {
    runId + "-" + d.className + "#" + Text(d.methodName)
  }

  function FullName(d: Description): string
  {
    d.className + "." + Text(d.methodName)
  }

  /** The first label with the given name, as a reader of the report finds it. */
  function FindLabel(labels: seq<Label>, name: string): (r: Option<Option<string>>)
    ensures r.None? <==> forall i :: 0 <= i < |labels| ==> labels[i].name != name
    ensures r.Some? ==> exists i :: 0 <= i < |labels| && labels[i] == Label(name, r.value)
                           && forall j :: 0 <= j < i ==> labels[j].name != name
  {
    if labels == [] then None
    else if labels[0].name == name then Some(labels[0].value)
    else
      var r := FindLabel(labels[1..], name);
      assert forall i :: 1 <= i < |labels| ==> labels[i] == labels[1..][i - 1];
      r
  }

  /** The test result the listener builds for a description, with no status yet. */
  function CreateTestResult(meta: Metadata, runId: string, d: Description): (r: TestResult)
    ensures r.uuid == TestUuid(runId, d)
    ensures r.status.None? && r.statusDetails.None?
  {
    TestResult(
      uuid := TestUuid(runId, d),
      historyId := meta.historyId(d),
      name := meta.methodDisplayName(d),
      fullName := FullName(d),
      links := meta.links(d),
      labels := [
        Label("package", Some(meta.packageOf(d))),
        Label("testClass", Some(d.className)),
        Label("testMethod", d.methodName),
        Label("suite", Some(meta.classDisplayName(d)))] + meta.labels(d),
      status := None,
      statusDetails := None)
  }

  /** A created test result names its class and method in its full name and
      in its leading labels. The identifying labels come first, so a reader
      taking the first label of a name sees the listener's values whatever the
      extractor adds, and the extractor's labels follow unchanged. */
  lemma TestResultFields(meta: Metadata, runId: string, d: Description)
    ensures var r := CreateTestResult(meta, runId, d);
            && r.fullName == FullName(d)
            && r.historyId == meta.historyId(d) && r.name == meta.methodDisplayName(d)
            && FindLabel(r.labels, "package") == Some(Some(meta.packageOf(d)))
            && FindLabel(r.labels, "testClass") == Some(Some(d.className))
            && FindLabel(r.labels, "testMethod") == Some(d.methodName)
            && FindLabel(r.labels, "suite") == Some(Some(meta.classDisplayName(d)))
            && |r.labels| == 4 + |meta.labels(d)| && r.labels[4..] == meta.labels(d)
            && r.labels[..4] == [Label("package", Some(meta.packageOf(d))),
                                 Label("testClass", Some(d.className)),
                                 Label("testMethod", d.methodName),
                                 Label("suite", Some(meta.classDisplayName(d)))]
  {
    var labels := CreateTestResult(meta, runId, d).labels;
    assert labels[1..][1..][1..][1..] == meta.labels(d);
    assert FindLabel(labels, "testMethod") == FindLabel(labels[1..][1..], "testMethod");
    assert FindLabel(labels, "suite") == FindLabel(labels[1..][1..], "suite");
    assert FindLabel(labels[1..][1..], "suite") == FindLabel(labels[1..][1..][1..], "suite");
  }

  /** Creates the container of a description's class: its uuid comes from the
      id source, it is registered under the class name and then started under
      the thread's run id. */
  function CreateContainer(meta: Metadata, s: State, d: Description): (r: (string, Step))
  {
    var id := FreshIds.FreshId(s.nextId);
    var registered := s.(containers := s.containers[d.className := id], nextId := s.nextId + 1);
    var (root, s') := CurrentRunId(registered);
    (id, Step(s', [StartContainer(Some(root), id, meta.classDisplayName(d))]))
  }

  /** The open container of a description's class, created on first use. */
  function GetContainer(meta: Metadata, s: State, d: Description): (r: (string, Step))
    ensures d.className in r.1.state.containers && r.1.state.containers[d.className] == r.0
    ensures d.className in s.containers ==> r == (s.containers[d.className], Step(s, []))
    ensures d.className !in s.containers ==>
      && r.0 == FreshIds.FreshId(s.nextId)
      && r.1.state.containers == s.containers[d.className := r.0]
      && r.1.state.runId.Some?
      && (s.runId.Some? ==> r.1.state.runId == s.runId)
      && r.1.events == [StartContainer(r.1.state.runId, r.0, meta.classDisplayName(d))]
  {
    if d.className in s.containers then (s.containers[d.className], Step(s, []))
    else CreateContainer(meta, s, d)
  }

  /** testRunStarted(): starts the root container, whose uuid is the run id.
      This overload is public but not part of the JUnit listener interface,
      so the JUnit runner never calls it. */
  function TestRunStarted(s: State): (r: Step)
    ensures r.state.runId == Some(RunIdOf(s)) && r.state.containers == s.containers
    ensures r.events == [StartContainer(None, RunIdOf(s), RootContainerName)]
  {
    var (root, s') := CurrentRunId(s);
    Step(s', [StartContainer(None, root, RootContainerName)])
  }

  /** The overload taking the run's description does nothing. */
  function TestRunStartedWith(s: State, runDescription: Description): (r: Step)
    ensures r.state == s && r.events == []
  {
    Step(s, [])
  }

  /** The uuids of the containers registered under `keys`, in that order. */
  function Lookup(m: map<string, string>, keys: seq<string>): (r: seq<string>)
    requires forall i :: 0 <= i < |keys| ==> keys[i] in m
    ensures |r| == |keys| && forall i :: 0 <= i < |keys| ==> r[i] == m[keys[i]]
  {
    if keys == [] then [] else [m[keys[0]]] + Lookup(m, keys[1..])
  }

  /** The drain at run end: each key of the snapshot is removed from the
      registry and its container stopped and written. */
  function Drain(m: map<string, string>, keys: seq<string>): (r: (map<string, string>, seq<Event>))
    requires NoDup(keys)
    requires forall i :: 0 <= i < |keys| ==> keys[i] in m
    ensures r.0 == m - Elements(keys)
    ensures r.1 == FinalizeAll(Lookup(m, keys))
    decreases |keys|
  {
    if keys == [] then (m, [])
    else
      var k := keys[0];
      var rest := keys[1..];
      assert forall i :: 0 <= i < |rest| ==> rest[i] == keys[i + 1] && rest[i] != k;
      var (left, events) := Drain(m - {k}, rest);
      assert Lookup(m - {k}, rest) == Lookup(m, keys)[1..];
      assert Elements(keys) == {k} + Elements(rest);
      (left, Finalize(m[k]) + events)
  }

  /** testRunFinished(): every registered container is removed and finalized
      in the order the registry's key snapshot lists them, then the run's root
      container is finalized, and the run id is dropped so that the next use
      mints a new one. Only container stops and writes are emitted. */
  function TestRunFinished(s: State, order: seq<string>): (r: Step)
    requires IsEnumeration(order, s.containers.Keys)
    ensures r.state.runId.None? && r.state.containers == map[]
    ensures r.state.nextId == s.nextId + (if s.runId.None? then 1 else 0)
    ensures ContainerStarts(r.events) == []
    ensures ContainerStops(r.events) == Lookup(s.containers, order) + [RunIdOf(s)]
    ensures ContainerWrites(r.events) == Lookup(s.containers, order) + [RunIdOf(s)]
    ensures StoppedBeforeWritten(r.events)
    ensures forall i :: 0 <= i < |r.events| ==> r.events[i].StopContainer? || r.events[i].WriteContainer?
  {
    var (left, drained) := Drain(s.containers, order);
    assert left == map[] by {
      assert left.Keys == s.containers.Keys - Elements(order);
    }
    var (root, s') := CurrentRunId(State(s.runId, left, s.nextId));
    var ids := Lookup(s.containers, order) + [root];
    assert drained + Finalize(root) == FinalizeAll(ids) by {
      FinalizeAllAppend(Lookup(s.containers, order), [root]);
    }
    FinalizeAllCalls(ids);
    Step(s'.(runId := None), drained + Finalize(root))
  }

  /** The overload taking the run's result ignores it. */
  function TestRunFinishedWith(s: State, result: Option<RunSummary>, order: seq<string>): (r: Step)
    requires IsEnumeration(order, s.containers.Keys)
    ensures r == TestRunFinished(s, order)
  {
    TestRunFinished(s, order)
  }

  /** testStarted(d): the test result is scheduled into its class container
      (created first when the class has none) and started. */
  function TestStarted(meta: Metadata, s: State, d: Description): (r: Step)
    ensures r.state.runId == Some(RunIdOf(s))
    ensures d.className in r.state.containers
    ensures forall c :: c in s.containers ==> c in r.state.containers && r.state.containers[c] == s.containers[c]
    ensures r.state.containers.Keys == s.containers.Keys + {d.className}
  {
    var (runId, s1) := CurrentRunId(s);
    var tr := CreateTestResult(meta, runId, d);
    var (cid, st) := GetContainer(meta, s1, d);
    Step(st.state, st.events + [Schedule(cid, tr), Start(tr.uuid)])
  }

  /** The calls testStarted makes: the class container's start when the class
      is new, then the test result scheduled into that container and started. */
  lemma TestStartedCalls(meta: Metadata, s: State, d: Description)
    ensures var r := TestStarted(meta, s, d);
            && |r.events| >= 2
            && r.events[|r.events| - 2..] ==
               [Schedule(r.state.containers[d.className], CreateTestResult(meta, RunIdOf(s), d)),
                Start(TestUuid(RunIdOf(s), d))]
            && (d.className in s.containers ==> |r.events| == 2)
            && (d.className !in s.containers ==>
                  r.events[0] == StartContainer(Some(RunIdOf(s)), r.state.containers[d.className], meta.classDisplayName(d))
                  && |r.events| == 3)
  {
  }

  /** testFinished(d): the description is not consulted. The sink's current
      test is marked passed when it has no status yet, then stopped and written. */
  function TestFinished(s: State, d: Description): (r: Step)
    ensures r.state == s
    ensures r.events == [Update(Current, MarkPassedIfUnset), Stop(Current), Write(Current)]
  {
    Step(s, [Update(Current, MarkPassedIfUnset), Stop(Current), Write(Current)])
  }

  /** The descriptions a failure is reported against: the test itself, or
      each direct child of a suite. */
  function Targets(d: Description): seq<Description>
  {
    if d.isTest then [d] else d.children
  }

  /** The ids of the tests a failure is reported against. */
  function TargetIds(runId: string, d: Description): (r: seq<string>)
    ensures |r| == |Targets(d)|
    ensures forall i :: 0 <= i < |r| ==> r[i] == TestUuid(runId, Targets(d)[i])
    ensures d.isTest ==> r == [TestUuid(runId, d)]
    ensures !d.isTest ==> |r| == |d.children| && forall i :: 0 <= i < |r| ==> r[i] == TestUuid(runId, d.children[i])
  {
    seq(|Targets(d)|, i requires 0 <= i < |Targets(d)| => TestUuid(runId, Targets(d)[i]))
  }

  /** The status update for an exception, as the classifier decides it. */
  function Outcome(meta: Metadata, e: Throwable): Change
  {
    SetOutcome(meta.statusOf(e), meta.detailsOf(e))
  }

  /** Applies one update per description, each to that description's test id. */
  function UpdateEach(s: State, ds: seq<Description>, change: Change): (r: Step)
    ensures r.state.containers == s.containers
    ensures ds != [] ==> r.state.runId == Some(RunIdOf(s))
    ensures ds == [] || s.runId.Some? ==> r.state == s
    ensures |r.events| == |ds|
    ensures forall i :: 0 <= i < |ds| ==> r.events[i] == Update(ById(TestUuid(RunIdOf(s), ds[i])), change)
    decreases |ds|
  {
    if ds == [] then Step(s, [])
    else
      var (runId, s1) := CurrentRunId(s);
      var rest := UpdateEach(s1, ds[1..], change);
      Step(rest.state, [Update(ById(TestUuid(runId, ds[0])), change)] + rest.events)
  }

  /** testFailure and testAssumptionFailure: the failure's status and details
      go to the failed test, or to every direct child of a failed suite. No
      test is stopped or written here. */
  function WithException(meta: Metadata, s: State, f: Failure): (r: Step)
    ensures r.state.containers == s.containers
    ensures s.runId.Some? ==> r.state == s
    ensures |r.events| == |Targets(f.description)|
    ensures forall i :: 0 <= i < |r.events| ==>
      r.events[i] == Update(ById(TargetIds(RunIdOf(s), f.description)[i]), Outcome(meta, f.exception))
  {
    UpdateEach(s, Targets(f.description), Outcome(meta, f.exception))
  }

  function TestFailure(meta: Metadata, s: State, f: Failure): Step
  {
    WithException(meta, s, f)
  }

  function TestAssumptionFailure(meta: Metadata, s: State, f: Failure): Step
  {
    WithException(meta, s, f)
  }

  /** The status details of an ignored test: the `@Ignore` reason when one is
      given, otherwise the fixed no-reason message. */
  function IgnoredMessage(d: Description): (r: StatusDetails)
    ensures r.trace.None?
    ensures d.ignore.Some? && d.ignore.value != "" ==> r.message == d.ignore
    ensures d.ignore.None? || d.ignore.value == "" ==> r.message == Some(NoReasonMessage)
  {
    var message := if d.ignore.Some? && |d.ignore.value| > 0 then d.ignore.value else NoReasonMessage;
    StatusDetails(message := Some(message), trace := None)
  }

  /** The result recorded for an ignored test: skipped, with the ignore reason. */
  function IgnoredResult(meta: Metadata, runId: string, d: Description): TestResult
  {
    CreateTestResult(meta, runId, d).(status := Some(SKIPPED), statusDetails := Some(IgnoredMessage(d)))
  }

  /** testIgnored(d): the skipped result is scheduled into its class container,
      started, stopped and written by id in one go. */
  function TestIgnored(meta: Metadata, s: State, d: Description): (r: Step)
    ensures r.state.runId == Some(RunIdOf(s))
    ensures d.className in r.state.containers
    ensures forall c :: c in s.containers ==> c in r.state.containers && r.state.containers[c] == s.containers[c]
    ensures r.state.containers.Keys == s.containers.Keys + {d.className}
  {
    var (runId, s1) := CurrentRunId(s);
    var tr := IgnoredResult(meta, runId, d);
    var (cid, st) := GetContainer(meta, s1, d);
    Step(st.state, st.events + [Schedule(cid, tr), Start(tr.uuid), Stop(ById(tr.uuid)), Write(ById(tr.uuid))])
  }

  /** The calls testIgnored makes: the class container's start when the class
      is new, then the skipped result scheduled, started, stopped and written
      by id. */
  lemma TestIgnoredCalls(meta: Metadata, s: State, d: Description)
    ensures var r := TestIgnored(meta, s, d);
            && |r.events| >= 4
            && r.events[|r.events| - 4..] ==
               [Schedule(r.state.containers[d.className], IgnoredResult(meta, RunIdOf(s), d)),
                Start(TestUuid(RunIdOf(s), d)),
                Stop(ById(TestUuid(RunIdOf(s), d))),
                Write(ById(TestUuid(RunIdOf(s), d)))]
            && (d.className in s.containers ==> |r.events| == 4)
            && (d.className !in s.containers ==>
                  r.events[0] == StartContainer(Some(RunIdOf(s)), r.state.containers[d.className], meta.classDisplayName(d))
                  && |r.events| == 5)
  {
  }

  /** One lifecycle callback. `RunStarted` is the public no-argument run
      start, which only a caller of the listener itself reaches; the JUnit
      runner delivers the other seven, and its run start is `RunStartedWith`.
      `RunFinished` carries the order in which the registry's key snapshot
      lists the keys. */
  datatype Callback =
    | RunStarted
    | RunStartedWith(runDescription: Description)
    | Started(description: Description)
    | Finished(description: Description)
    | Failed(failure: Failure)
    | AssumptionFailed(failure: Failure)
    | Ignored(description: Description)
    | RunFinished(order: seq<string>)

  /** The key order a run-finished callback carries is a real snapshot of the registry. */
  predicate Deliverable(s: State, cb: Callback)
  {
    cb.RunFinished? ==> IsEnumeration(cb.order, s.containers.Keys)
  }

  function Dispatch(meta: Metadata, s: State, cb: Callback): Step
    requires Deliverable(s, cb)
  {
    match cb
    case RunStarted => TestRunStarted(s)
    case RunStartedWith(d) => TestRunStartedWith(s, d)
    case Started(d) => TestStarted(meta, s, d)
    case Finished(d) => TestFinished(s, d)
    case Failed(f) => TestFailure(meta, s, f)
    case AssumptionFailed(f) => TestAssumptionFailure(meta, s, f)
    case Ignored(d) => TestIgnored(meta, s, d)
    case RunFinished(order) => TestRunFinished(s, order)
  }
}

=== FILE: run_trace.dfy ===
/** Whole runs: run start, any callbacks in between, run finish, and what the
    container calls of such a run add up to. */
module RunTrace {
  import opened Wrappers
  import opened Collections
  import opened ResultModel
  import opened Lifecycle
  import opened RunListener
  import opened ListenerInvariant
  import opened Recording
  import FreshIds

  /** A callback delivered between run start and run finish. */
  predicate InRun(cb: Callback)
  {
    !cb.RunStarted? && !cb.RunFinished?
  }

  /** Delivers the callbacks in order and collects the sink calls they make. */
  function Replay(meta: Metadata, s: State, cbs: seq<Callback>): Step
    requires forall i :: 0 <= i < |cbs| ==> InRun(cbs[i])
    decreases |cbs|
  {
    if cbs == [] then Step(s, [])
    else
      assert InRun(cbs[0]);
      var first := Dispatch(meta, s, cbs[0]);
      var rest := Replay(meta, first.state, cbs[1..]);
      Step(rest.state, first.events + rest.events)
  }

  /** The classes whose tests are started or ignored among the callbacks. */
  function ClassesOf(cbs: seq<Callback>): set<string>
  {
    if cbs == [] then {}
    else
      (if cbs[0].Started? || cbs[0].Ignored? then {cbs[0].description.className} else {})
      + ClassesOf(cbs[1..])
  }

  /** No container is stopped or written. */
  predicate OpensOnly(es: seq<Event>)
  {
    forall i :: 0 <= i < |es| ==> !es[i].StopContainer? && !es[i].WriteContainer?
  }

  /** Every container started is started under the given root. */
  predicate UnderRoot(es: seq<Event>, root: string)
  {
    forall i :: 0 <= i < |es| && es[i].StartContainer? ==> es[i].parent == Some(root)
  }

  lemma {:induction false} OpensOnlyCalls(es: seq<Event>)
    requires OpensOnly(es)
    ensures ContainerStops(es) == [] && ContainerWrites(es) == []
    decreases |es|
  {
    if es != [] {
      OpensOnlyCalls(es[1..]);
    }
  }

  /** The trace predicates distribute over concatenation. */
  lemma TraceAppend(a: seq<Event>, b: seq<Event>, root: string)
    ensures OpensOnly(a + b) <==> OpensOnly(a) && OpensOnly(b)
    ensures UnderRoot(a + b, root) <==> UnderRoot(a, root) && UnderRoot(b, root)
  {
    assert forall i :: 0 <= i < |a| ==> (a + b)[i] == a[i];
    assert forall i :: 0 <= i < |b| ==> (a + b)[|a| + i] == b[i];
  }

  /** The facts an in-run callback establishes about the registry and the
      container calls, stated for a state and a trace. */
  ghost predicate InRunStep(s: State, s': State, es: seq<Event>)
    requires s.runId.Some?
  {
    && Valid(s')
    && s'.runId == s.runId
    && (forall c :: c in s.containers ==> c in s'.containers && s'.containers[c] == s.containers[c])
    && OpensOnly(es)
    && UnderRoot(es, s.runId.value)
    && NoDup(ContainerStarts(es))
    && (forall id :: id in ContainerStarts(es) <==> id in s'.containers.Values && id !in s.containers.Values)
  }

  /** Getting or creating a class container during a run. */
  lemma GetContainerInRun(meta: Metadata, s: State, d: Description)
    requires Valid(s) && s.runId.Some?
    ensures var st := GetContainer(meta, s, d).1;
            && InRunStep(s, st.state, st.events)
            && st.state.containers.Keys == s.containers.Keys + {d.className}
  {
    GetContainerValid(meta, s, d);
    var (id, st) := GetContainer(meta, s, d);
    if d.className !in s.containers {
      assert ContainerStarts(st.events) == [id];
      forall c | c in s.containers ensures s.containers[c] != id {
        FreshIds.FreshIdIsNew(s.nextId, s.containers[c]);
      }
      forall x ensures x in st.state.containers.Values && x !in s.containers.Values <==> x == id {
        if x in st.state.containers.Values && x != id {
          var c :| c in st.state.containers && st.state.containers[c] == x;
          assert c in s.containers;
        }
      }
    } else {
      assert ContainerStarts(st.events) == [];
    }
  }

  /** Container get-or-create followed by calls that touch no container. */
  lemma ThenTestCalls(s: State, st: Step, tail: seq<Event>)
    requires s.runId.Some? && InRunStep(s, st.state, st.events)
    requires forall i :: 0 <= i < |tail| ==> tail[i].Schedule? || tail[i].Start? || tail[i].Stop? || tail[i].Write?
    ensures InRunStep(s, st.state, st.events + tail)
  {
    NoStarts(tail);
    ContainerCallsAppend(st.events, tail);
    TraceAppend(st.events, tail, s.runId.value);
  }

  /** testStarted during a run. */
  lemma StartedInRun(meta: Metadata, s: State, d: Description)
    requires Valid(s) && s.runId.Some?
    ensures var r := TestStarted(meta, s, d);
            && InRunStep(s, r.state, r.events)
            && r.state.containers.Keys == s.containers.Keys + {d.className}
  {
    GetContainerInRun(meta, s, d);
    var (cid, st) := GetContainer(meta, s, d);
    var tr := CreateTestResult(meta, s.runId.value, d);
    assert TestStarted(meta, s, d) == Step(st.state, st.events + [Schedule(cid, tr), Start(tr.uuid)]);
    ThenTestCalls(s, st, [Schedule(cid, tr), Start(tr.uuid)]);
  }

  /** testIgnored during a run. */
  lemma IgnoredInRun(meta: Metadata, s: State, d: Description)
    requires Valid(s) && s.runId.Some?
    ensures var r := TestIgnored(meta, s, d);
            && InRunStep(s, r.state, r.events)
            && r.state.containers.Keys == s.containers.Keys + {d.className}
  {
    GetContainerInRun(meta, s, d);
    var (cid, st) := GetContainer(meta, s, d);
    var tr := IgnoredResult(meta, s.runId.value, d);
    var tail := [Schedule(cid, tr), Start(tr.uuid), Stop(ById(tr.uuid)), Write(ById(tr.uuid))];
    assert TestIgnored(meta, s, d) == Step(st.state, st.events + tail);
    ThenTestCalls(s, st, tail);
  }

  /** A callback that makes only test calls and keeps the state. */
  lemma TestCallsOnly(s: State, r: Step)
    requires Valid(s) && s.runId.Some? && r.state == s
    requires forall i :: 0 <= i < |r.events| ==> r.events[i].Update? || r.events[i].Stop? || r.events[i].Write?
    ensures InRunStep(s, r.state, r.events)
  {
    NoStarts(r.events);
  }

  /** The facts one in-run callback establishes, once the run has a root. */
  lemma DispatchInRun(meta: Metadata, s: State, cb: Callback)
    requires Valid(s) && s.runId.Some? && InRun(cb)
    ensures var r := Dispatch(meta, s, cb);
            && InRunStep(s, r.state, r.events)
            && r.state.containers.Keys == s.containers.Keys + ClassesOf([cb])
  {
    assert ClassesOf([cb]) == (if cb.Started? || cb.Ignored? then {cb.description.className} else {});
    match cb
    case Started(d) => StartedInRun(meta, s, d);
    case Ignored(d) => IgnoredInRun(meta, s, d);
    case Failed(f) => TestCallsOnly(s, WithException(meta, s, f));
    case AssumptionFailed(f) => TestCallsOnly(s, WithException(meta, s, f));
    case Finished(d) => TestCallsOnly(s, TestFinished(s, d));
    case RunStartedWith(_) => TestCallsOnly(s, Step(s, []));
  }

  lemma {:induction false} NoStarts(es: seq<Event>)
    requires forall i :: 0 <= i < |es| ==> !es[i].StartContainer?
    ensures ContainerStarts(es) == []
    decreases |es|
  {
    if es != [] {
      NoStarts(es[1..]);
    }
  }

  /** Replaying in-run callbacks keeps the run root, registers exactly the
      classes whose tests start or are ignored, starts one new container for
      each newly registered class and no other, all under the run root, and
      stops or writes no container. */
  lemma {:induction false} ReplayInRun(meta: Metadata, s: State, cbs: seq<Callback>)
    requires Valid(s) && s.runId.Some?
    requires forall i :: 0 <= i < |cbs| ==> InRun(cbs[i])
    ensures var r := Replay(meta, s, cbs);
            && InRunStep(s, r.state, r.events)
            && r.state.containers.Keys == s.containers.Keys + ClassesOf(cbs)
    decreases |cbs|
  {
    if cbs == [] {
      assert ContainerStarts([]) == [];
    } else {
      assert InRun(cbs[0]);
      var first := Dispatch(meta, s, cbs[0]);
      var rest := Replay(meta, first.state, cbs[1..]);
      DispatchInRun(meta, s, cbs[0]);
      ReplayInRun(meta, first.state, cbs[1..]);
      ComposeInRun(s, first, rest);
      ClassesOfCons(cbs);
      KeysCompose(s.containers.Keys, first.state.containers.Keys, rest.state.containers.Keys,
                  ClassesOf([cbs[0]]), ClassesOf(cbs[1..]));
    }
  }

  lemma ClassesOfCons(cbs: seq<Callback>)
    requires cbs != []
    ensures ClassesOf(cbs) == ClassesOf([cbs[0]]) + ClassesOf(cbs[1..])
  {
    assert [cbs[0]][1..] == [];
  }

  lemma KeysCompose(k0: set<string>, k1: set<string>, k2: set<string>, a: set<string>, b: set<string>)
    requires k1 == k0 + a && k2 == k1 + b
    ensures k2 == k0 + (a + b)
  {
  }

  /** Two in-run stretches make one. */
  lemma ComposeInRun(s: State, first: Step, rest: Step)
    requires s.runId.Some?
    requires InRunStep(s, first.state, first.events)
    requires InRunStep(first.state, rest.state, rest.events)
    ensures InRunStep(s, rest.state, first.events + rest.events)
  {
    var es := first.events + rest.events;
    ContainerCallsAppend(first.events, rest.events);
    TraceAppend(first.events, rest.events, s.runId.value);
    forall id | id in ContainerStarts(first.events) ensures id !in ContainerStarts(rest.events) {
      assert id in first.state.containers.Values;
    }
    NoDupAppend(ContainerStarts(first.events), ContainerStarts(rest.events));
    forall id ensures id in ContainerStarts(es) <==> id in rest.state.containers.Values && id !in s.containers.Values
    {
      if id in s.containers.Values {
        var c :| c in s.containers && s.containers[c] == id;
        assert first.state.containers[c] == id;
      }
      if id in first.state.containers.Values {
        var c :| c in first.state.containers && first.state.containers[c] == id;
        assert rest.state.containers[c] == id;
      }
    }
  }

  /** The uuids the drain at run end finalizes are exactly the registered
      containers, each once. */
  lemma LookupEnumeration(s: State, order: seq<string>)
    requires Valid(s) && IsEnumeration(order, s.containers.Keys)
    ensures NoDup(Lookup(s.containers, order))
    ensures forall id :: id in Lookup(s.containers, order) <==> id in s.containers.Values
    ensures |Lookup(s.containers, order)| == |s.containers.Keys|
  {
    EnumerationLength(order, s.containers.Keys);
    LookupValues(s.containers, order);
    LookupNoDup(s.containers, order);
  }

  /** Looking up every key of a map, in some order, yields its values. */
  lemma LookupValues(m: map<string, string>, order: seq<string>)
    requires IsEnumeration(order, m.Keys)
    ensures forall id :: id in Lookup(m, order) <==> id in m.Values
  {
    var ids := Lookup(m, order);
    forall id ensures id in ids <==> id in m.Values {
      if id in m.Values {
        var c :| c in m && m[c] == id;
        assert c in Elements(order);
        var i :| 0 <= i < |order| && order[i] == c;
        assert ids[i] == id;
      }
    }
  }

  /** Distinct keys with distinct values look up to distinct values. */
  lemma LookupNoDup(m: map<string, string>, order: seq<string>)
    requires IsEnumeration(order, m.Keys)
    requires forall c1, c2 :: c1 in m && c2 in m && c1 != c2 ==> m[c1] != m[c2]
    ensures NoDup(Lookup(m, order))
  {
  }

  /** The container calls of a whole run with root `root` and `classes`
      class containers: the root is the first container started (with no
      parent) and every later one is started under it; each started container
      is stopped and then written exactly once, and nothing else is; the root
      is written last. */
  ghost predicate WellFormedRun(all: seq<Event>, root: string, classes: nat)
  {
    OpenedUnderRoot(all, root) && ClosedOnce(all, root, classes)
  }

  /** The root is the first container started, with no parent, and every
      later container is started under it. */
  ghost predicate OpenedUnderRoot(all: seq<Event>, root: string)
  {
    && |all| > 0 && all[0] == StartContainer(None, root, RootContainerName)
    && (forall i :: 0 < i < |all| && all[i].StartContainer? ==> all[i].parent == Some(root))
  }

  /** Each started container is stopped and then written exactly once, nothing
      else is, and the root is written last, after `classes` others. */
  ghost predicate ClosedOnce(all: seq<Event>, root: string, classes: nat)
  {
    && NoDup(ContainerStarts(all)) && NoDup(ContainerWrites(all))
    && (forall id :: id in ContainerStarts(all) <==> id in ContainerWrites(all))
    && ContainerStops(all) == ContainerWrites(all)
    && StoppedBeforeWritten(all)
    && |ContainerWrites(all)| == classes + 1
    && ContainerWrites(all)[classes] == root
  }

  /** A whole run on one thread, opened by the no-argument run start and
      started with no class registered: its container calls are well formed
      with one container per class whose tests were started or ignored, plus
      the root, and the listener ends with no run id and an empty registry.
      The JUnit runner does not open runs this way; DeliveredRun.JUnitRun and
      DeliveredRun.JUnitRunClosed cover the run it delivers. */
  lemma WholeRun(meta: Metadata, s: State, cbs: seq<Callback>, order: seq<string>)
    requires Valid(s) && s.containers == map[]
    requires forall i :: 0 <= i < |cbs| ==> InRun(cbs[i])
    requires IsEnumeration(order, Replay(meta, TestRunStarted(s).state, cbs).state.containers.Keys)
    ensures var started := TestRunStarted(s);
            var mid := Replay(meta, started.state, cbs);
            var finished := TestRunFinished(mid.state, order);
            && finished.state.runId.None? && finished.state.containers == map[]
            && WellFormedRun(started.events + mid.events + finished.events, RunIdOf(s), |ClassesOf(cbs)|)
  {
    var started := TestRunStarted(s);
    var mid := Replay(meta, started.state, cbs);
    var finished := TestRunFinished(mid.state, order);
    var ids := MidRun(meta, s, cbs, order);
    RunCalls(RunIdOf(s), mid.events, finished.events, ids);
  }

  /** The in-run stretch of a whole run and the uuids its finish drains. */
  lemma MidRun(meta: Metadata, s: State, cbs: seq<Callback>, order: seq<string>) returns (ids: seq<string>)
    requires Valid(s) && s.containers == map[]
    requires forall i :: 0 <= i < |cbs| ==> InRun(cbs[i])
    requires IsEnumeration(order, Replay(meta, TestRunStarted(s).state, cbs).state.containers.Keys)
    ensures var root := RunIdOf(s);
            var mid := Replay(meta, TestRunStarted(s).state, cbs);
            var fin := TestRunFinished(mid.state, order);
            && OpensOnly(mid.events) && UnderRoot(mid.events, root)
            && NoDup(ContainerStarts(mid.events)) && root !in ContainerStarts(mid.events)
            && NoDup(ids) && root !in ids && |ids| == |ClassesOf(cbs)|
            && (forall id :: id in ContainerStarts(mid.events) <==> id in ids)
            && ContainerStops(fin.events) == ids + [root] && ContainerWrites(fin.events) == ids + [root]
  {
    var root := RunIdOf(s);
    var started := TestRunStarted(s);
    assert started.state.runId == Some(root) && started.state.containers == map[];
    assert Valid(started.state) by {
      CurrentRunIdValid(s);
    }
    var mid := Replay(meta, started.state, cbs);
    assert InRunStep(started.state, mid.state, mid.events) && mid.state.containers.Keys == ClassesOf(cbs) by {
      ReplayInRun(meta, started.state, cbs);
    }
    ids := Lookup(mid.state.containers, order);
    assert NoDup(ids) && (forall id :: id in ids <==> id in mid.state.containers.Values) && |ids| == |ClassesOf(cbs)| by {
      LookupEnumeration(mid.state, order);
    }
  }

  /** The container calls of a run, given the facts about its three stretches:
      the root start, the in-run callbacks, and the run finish. */
  lemma RunCalls(root: string, mid: seq<Event>, fin: seq<Event>, ids: seq<string>)
    requires OpensOnly(mid) && UnderRoot(mid, root)
    requires NoDup(ContainerStarts(mid)) && root !in ContainerStarts(mid)
    requires NoDup(ids) && root !in ids
    requires forall id :: id in ContainerStarts(mid) <==> id in ids
    requires ContainerStarts(fin) == []
    requires ContainerStops(fin) == ids + [root] && ContainerWrites(fin) == ids + [root]
    requires StoppedBeforeWritten(fin)
    requires forall i :: 0 <= i < |fin| ==> fin[i].StopContainer? || fin[i].WriteContainer?
    ensures WellFormedRun([StartContainer(None, root, RootContainerName)] + mid + fin, root, |ids|)
  {
    RunParents(root, mid, fin);
    RunClosed(root, mid, fin, ids);
  }

  /** Every container of a run is stopped and then written exactly once. */
  lemma RunClosed(root: string, mid: seq<Event>, fin: seq<Event>, ids: seq<string>)
    requires OpensOnly(mid)
    requires NoDup(ContainerStarts(mid)) && root !in ContainerStarts(mid)
    requires NoDup(ids) && root !in ids
    requires forall id :: id in ContainerStarts(mid) <==> id in ids
    requires ContainerStarts(fin) == []
    requires ContainerStops(fin) == ids + [root] && ContainerWrites(fin) == ids + [root]
    requires StoppedBeforeWritten(fin)
    ensures ClosedOnce([StartContainer(None, root, RootContainerName)] + mid + fin, root, |ids|)
  {
    var all := [StartContainer(None, root, RootContainerName)] + mid + fin;
    var starts := ContainerStarts(all);
    var writes := ContainerWrites(all);
    assert starts == [root] + ContainerStarts(mid) && ContainerStops(all) == writes && writes == ids + [root] by {
      RunCallLists(root, mid, fin);
    }
    assert NoDup(starts) by {
      NoDupAppend([root], ContainerStarts(mid));
    }
    assert NoDup(writes) by {
      NoDupAppend(ids, [root]);
    }
    RunOrder(root, mid, fin);
  }

  /** The container ids started, stopped and written by a run, stretch by stretch. */
  lemma RunCallLists(root: string, mid: seq<Event>, fin: seq<Event>)
    requires OpensOnly(mid)
    requires ContainerStarts(fin) == []
    ensures var all := [StartContainer(None, root, RootContainerName)] + mid + fin;
            && ContainerStarts(all) == [root] + ContainerStarts(mid)
            && ContainerStops(all) == ContainerStops(fin)
            && ContainerWrites(all) == ContainerWrites(fin)
  {
    var first := [StartContainer(None, root, RootContainerName)];
    OpensOnlyCalls(mid);
    ContainerCallsAppend(first, mid);
    ContainerCallsAppend(first + mid, fin);
    assert ContainerStarts(first) == [root];
  }

  /** A run's containers are stopped before they are written. */
  lemma RunOrder(root: string, mid: seq<Event>, fin: seq<Event>)
    requires OpensOnly(mid)
    requires StoppedBeforeWritten(fin)
    ensures StoppedBeforeWritten([StartContainer(None, root, RootContainerName)] + mid + fin)
  {
    var head := [StartContainer(None, root, RootContainerName)] + mid;
    forall i | 0 <= i < |head| ensures !head[i].WriteContainer? {
      if i >= 1 { assert head[i] == mid[i - 1]; }
    }
    if fin != [] {
      assert !fin[0].WriteContainer?;
    }
    StoppedBeforeWrittenAppend(head, fin);
  }

  /** Every container of a run after the root is started under the root. */
  lemma RunParents(root: string, mid: seq<Event>, fin: seq<Event>)
    requires UnderRoot(mid, root)
    requires forall i :: 0 <= i < |fin| ==> !fin[i].StartContainer?
    ensures OpenedUnderRoot([StartContainer(None, root, RootContainerName)] + mid + fin, root)
  {
    var head := [StartContainer(None, root, RootContainerName)] + mid;
    var all := head + fin;
    assert all[0] == StartContainer(None, root, RootContainerName);
    forall i | 0 < i < |all| && all[i].StartContainer? ensures all[i].parent == Some(root) {
      if i < |head| {
        assert all[i] == mid[i - 1];
      }
    }
  }

  /** A failure reported later in the same run, after any other in-run
      callbacks, updates exactly the id that testStarted scheduled. */
  lemma {:induction false} FailureTargetsScheduledTest(meta: Metadata, s: State, d: Description,
                                                        cbs: seq<Callback>, e: Throwable)
    requires d.isTest
    requires forall i :: 0 <= i < |cbs| ==> InRun(cbs[i])
    ensures var started := TestStarted(meta, s, d);
            var scheduled := started.events[|started.events| - 2];
            var mid := Replay(meta, started.state, cbs);
            var failed := TestFailure(meta, mid.state, Failure(d, e));
            && scheduled.Schedule?
            && failed.events == [Update(ById(scheduled.result.uuid), SetOutcome(meta.statusOf(e), meta.detailsOf(e)))]
  {
    var started := TestStarted(meta, s, d);
    ReplayKeepsRunId(meta, started.state, cbs);
    var mid := Replay(meta, started.state, cbs);
    assert RunIdOf(mid.state) == RunIdOf(s);
  }

  /** In-run callbacks never change a run id that is already set. */
  lemma {:induction false} ReplayKeepsRunId(meta: Metadata, s: State, cbs: seq<Callback>)
    requires s.runId.Some?
    requires forall i :: 0 <= i < |cbs| ==> InRun(cbs[i])
    ensures Replay(meta, s, cbs).state.runId == s.runId
    decreases |cbs|
  {
    if cbs != [] {
      var first := Dispatch(meta, s, cbs[0]);
      assert first.state.runId == s.runId;
      ReplayKeepsRunId(meta, first.state, cbs[1..]);
    }
  }

  /** Each description started and then finished, one after the other. */
  function Pairs(ds: seq<Description>): (r: seq<Callback>)
    ensures forall i :: 0 <= i < |r| ==> InRun(r[i])
  {
    if ds == [] then [] else [Started(ds[0]), Finished(ds[0])] + Pairs(ds[1..])
  }

  /** `after` holds every test of `before`, and the tests `ids` besides;
      those are written as PASSED and the others are untouched. */
  ghost predicate WrittenPassed(before: map<string, Entry>, after: map<string, Entry>, ids: set<string>)
  {
    && after.Keys == before.Keys + ids
    && (forall id :: id in ids ==> after[id] == Entry(Some(PASSED), None, Written))
    && (forall id :: id in before && id !in ids ==> after[id] == before[id])
  }

  /** Tests that are each started and then finished, with no failure, are all
      written as PASSED; tests the sink held before and that are not among
      them are untouched. This holds from any listener state, also one with no
      run id yet, where the first test start mints it. */
  lemma {:induction false} StartFinishPairs(meta: Metadata, s: State, ds: seq<Description>, k: Sink)
    ensures WrittenPassed(k.tests, ApplyAll(k, Replay(meta, s, Pairs(ds)).events).tests,
                          set d | d in ds :: TestUuid(RunIdOf(s), d))
    decreases |ds|
  {
    var root := RunIdOf(s);
    if ds == [] {
      assert ApplyAll(k, []) == k;
    } else {
      var d := ds[0];
      var started := TestStarted(meta, s, d);
      var finished := TestFinished(started.state, d);
      var rest := Replay(meta, started.state, Pairs(ds[1..]));
      ReplayPairsStep(meta, s, ds);
      PassedTestReport(meta, s, d, k);
      var k2 := ApplyAll(k, started.events + finished.events);
      ApplyAllAppend(k, started.events + finished.events, rest.events);
      assert RunIdOf(started.state) == root;
      StartFinishPairs(meta, started.state, ds[1..], k2);
      PairsIds(root, ds);
      WrittenPassedStep(k.tests, k2.tests, ApplyAll(k2, rest.events).tests, TestUuid(root, d),
                        set x | x in ds[1..] :: TestUuid(root, x));
    }
  }

  /** The uuids of a list of descriptions: the first one's, then the rest's. */
  lemma PairsIds(root: string, ds: seq<Description>)
    requires ds != []
    ensures (set x | x in ds :: TestUuid(root, x))
            == {TestUuid(root, ds[0])} + (set x | x in ds[1..] :: TestUuid(root, x))
  {
    assert ds == [ds[0]] + ds[1..];
  }

  /** Writing one test as PASSED and then the tests `rest` as PASSED writes
      them all. */
  lemma WrittenPassedStep(before: map<string, Entry>, mid: map<string, Entry>, after: map<string, Entry>,
                          id: string, rest: set<string>)
    requires mid == before[id := Entry(Some(PASSED), None, Written)]
    requires WrittenPassed(mid, after, rest)
    ensures WrittenPassed(before, after, {id} + rest)
  {
  }

  /** Replaying pairs: the first pair, then the rest from the state it leaves. */
  lemma ReplayPairsStep(meta: Metadata, s: State, ds: seq<Description>)
    requires ds != []
    ensures var started := TestStarted(meta, s, ds[0]);
            && started.state.runId == Some(RunIdOf(s))
            && Replay(meta, s, Pairs(ds)).events ==
               started.events + TestFinished(started.state, ds[0]).events
               + Replay(meta, started.state, Pairs(ds[1..])).events
  {
    var cbs := Pairs(ds);
    assert cbs[1..][1..] == Pairs(ds[1..]);
  }

  /** Every test scheduled in `es` goes into a container that is open already
      (`open`) or that `es` started earlier. */
  ghost predicate SchedulesOpen(open: set<string>, es: seq<Event>)
  {
    forall i :: 0 <= i < |es| && es[i].Schedule? ==>
      es[i].containerId in open || es[i].containerId in ContainerStarts(es[..i])
  }

  /** One in-run callback schedules only into a registered container or one
      it has just started. */
  lemma DispatchSchedules(meta: Metadata, s: State, cb: Callback)
    requires InRun(cb)
    ensures SchedulesOpen(s.containers.Values, Dispatch(meta, s, cb).events)
  {
    match cb
    case Started(d) => StartedSchedules(meta, s, d);
    case Ignored(d) => IgnoredSchedules(meta, s, d);
    case Failed(f) =>
    case AssumptionFailed(f) =>
    case Finished(d) =>
    case RunStartedWith(_) =>
  }

  /** Calls that schedule only into `cid`, which is open already or started by
      the first call. */
  lemma SchedulesInto(open: set<string>, es: seq<Event>, cid: string)
    requires forall i :: 0 <= i < |es| && es[i].Schedule? ==> es[i].containerId == cid
    requires cid in open || (|es| > 0 && es[0].StartContainer? && es[0].id == cid)
    ensures SchedulesOpen(open, es)
  {
    forall i | 0 <= i < |es| && es[i].Schedule?
      ensures es[i].containerId in open || es[i].containerId in ContainerStarts(es[..i])
    {
      if cid !in open {
        assert es[..i] == [es[0]] + es[1..i];
      }
    }
  }

  /** A test start schedules into its class container, registered before or
      started by the same callback. */
  lemma StartedSchedules(meta: Metadata, s: State, d: Description)
    ensures SchedulesOpen(s.containers.Values, TestStarted(meta, s, d).events)
  {
    TestStartedCalls(meta, s, d);
    var r := TestStarted(meta, s, d);
    var cid := r.state.containers[d.className];
    assert forall i :: 0 <= i < |r.events| && r.events[i].Schedule? ==> r.events[i].containerId == cid by {
      var k := |r.events| - 2;
      assert r.events[k..] == [r.events[k], r.events[k + 1]];
    }
    assert d.className in s.containers ==> cid == s.containers[d.className];
    SchedulesInto(s.containers.Values, r.events, cid);
  }

  /** An ignored test is scheduled into its class container, registered
      before or started by the same callback. */
  lemma IgnoredSchedules(meta: Metadata, s: State, d: Description)
    ensures SchedulesOpen(s.containers.Values, TestIgnored(meta, s, d).events)
  {
    TestIgnoredCalls(meta, s, d);
    var r := TestIgnored(meta, s, d);
    var cid := r.state.containers[d.className];
    assert forall i :: 0 <= i < |r.events| && r.events[i].Schedule? ==> r.events[i].containerId == cid by {
      var k := |r.events| - 4;
      assert r.events[k..] == [r.events[k], r.events[k + 1], r.events[k + 2], r.events[k + 3]];
    }
    assert d.className in s.containers ==> cid == s.containers[d.className];
    SchedulesInto(s.containers.Values, r.events, cid);
  }

  /** Two stretches, the second scheduling only into containers open after the
      first, schedule only into containers open before them or started in them. */
  lemma SchedulesAppend(open: set<string>, a: seq<Event>, b: seq<Event>, open2: set<string>)
    requires SchedulesOpen(open, a) && SchedulesOpen(open2, b)
    requires forall id :: id in open2 ==> id in open || id in ContainerStarts(a)
    ensures SchedulesOpen(open, a + b)
  {
    var c := a + b;
    forall i | 0 <= i < |c| && c[i].Schedule?
      ensures c[i].containerId in open || c[i].containerId in ContainerStarts(c[..i])
    {
      if i < |a| {
        assert c[..i] == a[..i];
      } else {
        var k := i - |a|;
        assert c[i] == b[k];
        assert c[..i] == a + b[..k];
        StartsAppend(a, b[..k]);
      }
    }
  }

  /** In-run callbacks schedule only into containers registered before them
      or started by them earlier. */
  lemma {:induction false} ReplaySchedules(meta: Metadata, s: State, cbs: seq<Callback>)
    requires Valid(s) && s.runId.Some?
    requires forall i :: 0 <= i < |cbs| ==> InRun(cbs[i])
    ensures SchedulesOpen(s.containers.Values, Replay(meta, s, cbs).events)
    decreases |cbs|
  {
    if cbs != [] {
      assert InRun(cbs[0]);
      var first := Dispatch(meta, s, cbs[0]);
      var rest := Replay(meta, first.state, cbs[1..]);
      assert InRunStep(s, first.state, first.events) by {
        DispatchInRun(meta, s, cbs[0]);
      }
      DispatchSchedules(meta, s, cbs[0]);
      ReplaySchedules(meta, first.state, cbs[1..]);
      SchedulesAppend(s.containers.Values, first.events, rest.events, first.state.containers.Values);
    }
  }

  /** Every test scheduled in a run goes into a container the run started
      earlier under the root and writes at its end. */
  ghost predicate ScheduledIntoRunContainers(all: seq<Event>, root: string)
  {
    forall i :: 0 <= i < |all| && all[i].Schedule? ==>
      && (exists j :: 0 <= j < i && all[j].StartContainer? && all[j].id == all[i].containerId
                                  && all[j].parent == Some(root))
      && all[i].containerId in ContainerWrites(all)
  }

  /** A test scheduled at `k` in a stretch that opened nothing beforehand
      goes into a container that the stretch started earlier. */
  lemma ScheduleStartedBefore(mid: seq<Event>, k: int) returns (j: int)
    requires SchedulesOpen({}, mid) && 0 <= k < |mid| && mid[k].Schedule?
    ensures 0 <= j < k && mid[j].StartContainer? && mid[j].id == mid[k].containerId
    ensures mid[k].containerId in ContainerStarts(mid)
  {
    var cid := mid[k].containerId;
    assert cid in ContainerStarts(mid[..k]);
    StartsContent(mid[..k]);
    j :| 0 <= j < k && mid[..k][j].StartContainer? && mid[..k][j].id == cid;
    StartsAppend(mid[..k], mid[k..]);
    assert mid[..k] + mid[k..] == mid;
  }

  /** The schedules of a run's three stretches, put together. */
  lemma RunScheduleTargets(root: string, mid: seq<Event>, fin: seq<Event>, ids: seq<string>)
    requires OpensOnly(mid) && UnderRoot(mid, root) && SchedulesOpen({}, mid)
    requires forall id :: id in ContainerStarts(mid) <==> id in ids
    requires ContainerStarts(fin) == [] && ContainerWrites(fin) == ids + [root]
    requires forall i :: 0 <= i < |fin| ==> fin[i].StopContainer? || fin[i].WriteContainer?
    ensures ScheduledIntoRunContainers([StartContainer(None, root, RootContainerName)] + mid + fin, root)
  {
    var all := [StartContainer(None, root, RootContainerName)] + mid + fin;
    assert ContainerWrites(all) == ids + [root] by {
      RunCallLists(root, mid, fin);
    }
    forall i | 0 <= i < |all| && all[i].Schedule?
      ensures && (exists j :: 0 <= j < i && all[j].StartContainer? && all[j].id == all[i].containerId
                                          && all[j].parent == Some(root))
              && all[i].containerId in ContainerWrites(all)
    {
      RunScheduleTarget(root, mid, fin, ids, all, i);
    }
  }

  /** One schedule of a run, as RunScheduleTargets puts them together. */
  lemma RunScheduleTarget(root: string, mid: seq<Event>, fin: seq<Event>, ids: seq<string>, all: seq<Event>, i: int)
    requires UnderRoot(mid, root) && SchedulesOpen({}, mid)
    requires forall id :: id in ContainerStarts(mid) <==> id in ids
    requires forall i :: 0 <= i < |fin| ==> fin[i].StopContainer? || fin[i].WriteContainer?
    requires all == [StartContainer(None, root, RootContainerName)] + mid + fin
    requires 0 <= i < |all| && all[i].Schedule?
    ensures exists j :: 0 <= j < i && all[j].StartContainer? && all[j].id == all[i].containerId
                                   && all[j].parent == Some(root)
    ensures all[i].containerId in ids
  {
    if i >= 1 + |mid| {
      assert false;
    }
    assert all[i] == mid[i - 1];
    var j := ScheduleStartedBefore(mid, i - 1);
    assert all[j + 1] == mid[j];
  }

  /** A whole run as in WholeRun: each test is scheduled into a class
      container that the run started before, under the root, and writes at
      its end. */
  lemma ScheduledTestsInRunContainers(meta: Metadata, s: State, cbs: seq<Callback>, order: seq<string>)
    requires Valid(s) && s.containers == map[]
    requires forall i :: 0 <= i < |cbs| ==> InRun(cbs[i])
    requires IsEnumeration(order, Replay(meta, TestRunStarted(s).state, cbs).state.containers.Keys)
    ensures var started := TestRunStarted(s);
            var mid := Replay(meta, started.state, cbs);
            var finished := TestRunFinished(mid.state, order);
            ScheduledIntoRunContainers(started.events + mid.events + finished.events, RunIdOf(s))
  {
    var started := TestRunStarted(s);
    var mid := Replay(meta, started.state, cbs);
    var finished := TestRunFinished(mid.state, order);
    assert SchedulesOpen({}, mid.events) by {
      CurrentRunIdValid(s);
      assert started.state.containers.Values == {};
      ReplaySchedules(meta, started.state, cbs);
    }
    var ids := MidRun(meta, s, cbs, order);
    RunScheduleTargets(RunIdOf(s), mid.events, finished.events, ids);
  }
}

=== FILE: test_ids.dfy ===
/** Reading a test's identity back out of the strings the listener builds.

    A test id is the run id, "-", the class name, "#" and the method text; a
    full name is the class name, "." and the method text, where a missing
    method name is printed as "null". A test id can be taken apart again only
    when the class name holds no '#', and a full name only when the method
    text holds no '.'. Neither holds in general: class names and JUnit suite
    names may contain '#', a missing method name and a method named "null"
    print alike, and parameterized JUnit method names such as "add[1.5]"
    contain '.'. The collisions this allows are stated below as concrete
    cases. */
module TestIds {
  import opened Wrappers
  import opened Collections
  import opened ResultModel
  import opened RunListener

  /** Splits a test id of the given run into class name and method text. */
  function ParseTestUuid(runId: string, uuid: string): Option<(string, string)>
  {
    var prefix := runId + "-";
    if |uuid| < |prefix| || uuid[..|prefix|] != prefix then None
    else
      var rest := uuid[|prefix|..];
      var i := IndexOf(rest, '#');
      if i < 0 then None else Some((rest[..i], rest[i + 1..]))
  }

  /** Splits a full name at its last '.' into class name and method text. */
  function SplitFullName(fullName: string): Option<(string, string)>
  {
    var i := LastIndexOf(fullName, '.');
    if i < 0 then None else Some((fullName[..i], fullName[i + 1..]))
  }

  /** A test id gives back the class and method it was built from. */
  lemma TestUuidRoundTrip(runId: string, d: Description)
    requires '#' !in d.className
    ensures ParseTestUuid(runId, TestUuid(runId, d)) == Some((d.className, Text(d.methodName)))
  {
    var prefix := runId + "-";
    var rest := d.className + ['#'] + Text(d.methodName);
    assert TestUuid(runId, d) == prefix + rest;
    PrefixSplit(prefix, rest);
    SplitAtFirst(d.className, '#', Text(d.methodName));
  }

  lemma PrefixSplit(p: string, r: string)
    ensures (p + r)[..|p|] == p && (p + r)[|p|..] == r
  {
  }

  /** A string with a separator that its left part does not contain splits at
      that separator back into its two parts. */
  lemma SplitAtFirst(a: string, x: char, b: string)
    requires x !in a
    ensures var s := a + [x] + b;
            IndexOf(s, x) == |a| && s[..|a|] == a && s[|a| + 1..] == b
  {
    IndexOfSeparator(a, x, b);
    var s := a + [x] + b;
    assert s[..|a|] == a;
    assert s[|a| + 1..] == b;
  }

  /** Within one run, two descriptions whose class names hold no '#' share a
      test id exactly when they name the same class and the same method text
      (a missing method name counting as the text "null"). */
  lemma TestUuidInjective(runId: string, d1: Description, d2: Description)
    requires '#' !in d1.className && '#' !in d2.className
    ensures TestUuid(runId, d1) == TestUuid(runId, d2) <==>
      d1.className == d2.className && Text(d1.methodName) == Text(d2.methodName)
  {
    TestUuidRoundTrip(runId, d1);
    TestUuidRoundTrip(runId, d2);
  }

  /** A full name whose method text holds no '.' gives back the class and
      method it was built from. */
  lemma FullNameRoundTrip(d: Description)
    requires '.' !in Text(d.methodName)
    ensures SplitFullName(FullName(d)) == Some((d.className, Text(d.methodName)))
  {
    var full := FullName(d);
    assert full == d.className + ['.'] + Text(d.methodName);
    LastIndexOfSeparator(d.className, '.', Text(d.methodName));
    assert full[..|d.className|] == d.className;
    assert full[|d.className| + 1..] == Text(d.methodName);
  }

  /** Without the condition on class names, two different tests of one run
      can share an id: class "a#b" with method "c" and class "a" with method
      "b#c", for any texts a, b and c. */
  lemma HashInClassNameCollides(runId: string, d1: Description, d2: Description, a: string, b: string, c: string)
    requires d1.className == a + "#" + b && d1.methodName == Some(c)
    requires d2.className == a && d2.methodName == Some(b + "#" + c)
    ensures d1.className != d2.className && d1.methodName != d2.methodName
    ensures TestUuid(runId, d1) == TestUuid(runId, d2)
  {
    assert |d1.className| > |d2.className|;
    assert |c| < |b + "#" + c|;
    assert d1.className + "#" + c == a + "#" + (b + "#" + c);
  }

  /** A description with no method name, such as a class-level one, gets the
      same id as a method named "null" of the same class. */
  lemma MissingMethodNameCollides(runId: string, c: string)
    ensures var d1 := Description(c, None, false, [], None);
            var d2 := Description(c, Some("null"), true, [], None);
            d1.methodName != d2.methodName && TestUuid(runId, d1) == TestUuid(runId, d2)
  {
  }

  /** A method name holding '.', such as the parameterized "add[1.5]", does
      not split back from the full name: the split falls at the method's last
      '.', so the class part comes back longer than the class name. */
  lemma DotInMethodNameMisSplits(d: Description, head: string, tail: string)
    requires d.methodName == Some(head + "." + tail) && '.' !in tail
    ensures SplitFullName(FullName(d)) == Some((d.className + "." + head, tail))
    ensures SplitFullName(FullName(d)) != Some((d.className, Text(d.methodName)))
  {
    var a := d.className + "." + head;
    assert FullName(d) == a + ['.'] + tail;
    LastIndexOfSeparator(a, '.', tail);
    assert (a + ['.'] + tail)[..|a|] == a;
    assert (a + ['.'] + tail)[|a| + 1..] == tail;
  }
}

=== FILE: wrappers.dfy ===
/** The nullable values of the listener (a run id not yet minted, a status not
    yet set, a method name a suite description does not have) as an Option. */
module Wrappers {

  datatype Option<+T> = None | Some(value: T) {

    /** Returns the value held in Some, or a default for None. */
    function GetOr(default: T): T
    {
      match this
      case Some(v) => v
      case None => default
    }
  }
}
